=== FILE: README.md ===
# Public transit tracker — a Dafny model of its core

The public transit tracker loads a GTFS timetable from CSV files into a
database. It serves three things over HTTP:

- the live vehicles, service alerts and trip updates of the MBTA realtime
  feeds, each cached for a short while;
- which routes connect two stops in timetable order;
- a per-user list of favourite routes and stops.

A browser client groups the routes by vehicle type, searches them, and
renders the live vehicles, the alerts and the favourites.

This project models that core as pure Dafny functions and methods and proves
what each operation promises.

- `Parser` models the four CSV loaders. Its key facts:
  - the header row is skipped;
  - empty fields become NULL;
  - `ON CONFLICT DO NOTHING` keeps the first row per key;
  - a failed insert is logged and the loop goes on;
  - a short row is an index panic;
  - the printed count is `len(rows) - 1`;
  - `LoadRoutes`, `LoadTrips` and `LoadStopTimes` ignore an unreadable
    file, load nothing and print `-1`, while `LoadStops` returns the open
    or read error and prints no count.
- `RealTime` and `CacheKeys` model the three feed handlers and their keys:
  - a cache hit is answered as stored;
  - a feed error is a 500 that caches nothing;
  - otherwise the filtered, projected list is written back with its TTL
    (10 s, 60 s, 10 s).
- `Connectivity` models the stop connectivity handler:
  - its validation order, cache and 404s;
  - its SQL query, stated as a set-level property. A route connects
    `from` to `to` when the least `from` sequence is below the least `to`
    sequence, both taken over the route's trips that visit both stops.
  - A method computes the answer and proves it equal to that property, in
    ascending route order.
- `FavoritesStore` models the favourites table and its three queries.
  `FavoritesApi` models the HTTP handlers in front of them: status codes,
  check order, the `strconv.Atoi` error text, and the JSON `null` sent to a
  user with no favourites.
- `ClientRoutes`, `ClientLive`, `ClientAlerts` and `ClientFavorites` model
  the client functions of `frontend/app.js`.
  - Their results are the data a panel shows (placeholder text, error text
    or a list of views), not HTML.
  - `Js` holds the JavaScript notions they need: `Array.isArray`, a fetch
    outcome, and a rendered panel.
- `Text`, `Seqs`, `Http` and `Wrappers` hold shared helpers:
  - ASCII case mapping, substring search, Go's integer parsing and
    formatting, code-point string order;
  - order-preserving selection;
  - status codes and JSON `null` vs `[]`;
  - `Option` and `Result`.

How the outside world enters the model:

- The cache, the feeds, the database driver's failures, `strconv.ParseFloat`
  and the per-row acceptance of an `INSERT` are parameters.
- A cache is a function from key to optional value.
- A fetched feed is a `Result`.
- A database fault is an optional error text.

Observations the model makes precise:

- Connectivity cache keys are ambiguous when a stop id contains `:`.
  `CacheKeys.ConnectivityKeyCollides` shows `("a:b", "c")` and
  `("a", "b:c")` share a key. `CacheKeys.ConnectivityKeyInjective` shows
  that without colons the keys are distinct.
- The favourites query takes `COALESCE(route_long_name, route_short_name)`.
  The route loader stores an empty long name as `''`, not as NULL. So a
  favourite route with only a short name gets an empty joined name, and the
  client shows it as `ROUTE - <id>` (`ClientFavorites.RouteFavoriteName`).
- The alerts tab of a favourite route has no `Array.isArray` guard.
  - On a non-array reply it raises a TypeError, which the tab shows as an
    error.
  - On an empty array it shows "No alerts for this route", not "No alerts
    available for this route".
  - `ClientAlerts.TabsAgree` proves the two alert tabs agree everywhere else.

## Model

| member | source | states |
|---|---|---|
| Parser.StopFromRow | parser/parser.go:45-62 | A stop row with fewer than 6 fields panics. Otherwise the record takes id `row[0]` and name `row[2]`. Latitude and longitude are NULL exactly when the field is empty or does not parse as a float, and hold the parsed value otherwise. |
| Parser.RouteFromRow | parser/parser.go:84-95 | A route row with fewer than 6 fields panics. Otherwise id, agency, short and long name are fields 0-3 as written. `route_type` is NULL exactly when field 5 is empty or not a base-10 int64, and holds that value otherwise. |
| Parser.TripFromRow | parser/parser.go:117-126 | A trip row with fewer than 3 fields panics. Otherwise the trip id is `row[2]`, the route `row[0]` and the service `row[1]`. The headsign is present exactly when a non-empty fourth field exists. |
| Parser.StopTimeFromRow | parser/parser.go:148-169 | A stop-time row with fewer than 4 fields panics. Otherwise trip and stop come from fields 0 and 3. Arrival and departure are present exactly when non-empty. The sequence is present exactly when field 4 exists, is non-empty and parses as an int64. |
| Parser.RouteTypeRoundTrip | parser/parser.go:84-89 | Any int64 written in decimal in the `route_type` column is read back as that same number. |
| Parser.FirstByKey | parser/parser.go:58-62 | Looking up a key yields a stored record with that key, and yields nothing exactly when no record has it. |
| Parser.FirstByKeyEarliest | parser/parser.go:58-62 | The record a key finds is the earliest one with that key: a record at position `i` with no earlier record of the same key is the one found. |
| Parser.Insert | parser/parser.go:58-62 | `ON CONFLICT DO NOTHING`: a record is appended only when the database accepts it and its key is new. Otherwise the table is unchanged. Existing rows are never touched, and a table with unique keys keeps unique keys. |
| Parser.InsertLookup | parser/parser.go:58-62 | After an insert, only the inserted record's key can find something new, and it finds the record only when the key was absent and the database accepted the row. Every other key finds what it found before. |
| Parser.LoadFrom | parser/parser.go:40-69 | A load never returns an error once the rows are read. It completes exactly when no data row at or after the start position panics, and then reports `len(rows) - 1`. A panic names the first data row that is too short. |
| Parser.LoadKeepsFirst | parser/parser.go:40-66 | After a load, every key maps to the first accepted record with that key among the existing table followed by the rows processed. Unique keys stay unique. |
| Parser.HeaderIgnored | parser/parser.go:40-43 | The header row never affects a load's result. |
| Parser.FailedInsertsDoNotStopTheLoop | parser/parser.go:64-66 | Whether a load completes or panics, and the printed count, do not depend on which inserts the database rejected. |
| Parser.LoadRowsFirstWins | parser/parser.go:40-69 | Loading any non-empty row list from the second row on never fails. It completes exactly when every data row converts, prints `len(rows) - 1`, and otherwise panics at the first short row. Every key then finds the first accepted record with that key among the existing table and the rows processed, and unique keys stay unique. |
| Parser.LoadStops | parser/parser.go:27-71 | An unreadable stops file is returned as the error. A file with at most a header changes nothing and prints `len(rows) - 1`. For any other file, every row from the second on is read with `StopFromRow`, keyed by `stop_id`: the load completes exactly when no row is short, prints `len(rows) - 1`, and each stop id finds its first accepted row. |
| Parser.LoadRoutes | parser/parser.go:73-104 | Loading routes never fails. An unreadable file changes nothing and prints -1. A readable file with no rows, or only a header, changes nothing and prints `len(rows) - 1`. For any other file, each data row is read with `RouteFromRow`, keyed by `route_id`: the load completes exactly when no row is short, prints `len(rows) - 1`, and each route id finds its first accepted row. |
| Parser.LoadTrips | parser/parser.go:106-135 | Loading trips never fails. An unreadable file changes nothing and prints -1. A readable file with no rows, or only a header, changes nothing and prints `len(rows) - 1`. For any other file, each data row is read with `TripFromRow`, keyed by `trip_id`: the load completes exactly when no row is short, prints `len(rows) - 1`, and each trip id finds its first accepted row. |
| Parser.LoadStopTimes | parser/parser.go:137-178 | Loading stop times never fails. An unreadable file changes nothing and prints -1. A readable file with no rows, or only a header, changes nothing and prints `len(rows) - 1`. For any other file, each data row is read with `StopTimeFromRow` under the conflict key: the load completes exactly when no row is short, prints `len(rows) - 1`, and each key finds its first accepted row. |
| CacheKeys.FeedKeysDistinct | handlers/real_time.go:66 | Live and trip-update keys are injective in the route id. They never collide with each other, with `alerts:all`, or with a connectivity key. |
| CacheKeys.ConnectivityKeyInjective | handlers/route_connectivity.go:30 | Two connectivity keys whose from-stops contain no `:` are equal only for equal stop pairs. |
| CacheKeys.ConnectivityKeyCollides | handlers/route_connectivity.go:30 | Different stop pairs can share a connectivity key when a stop id contains `:`. |
| RealTime.Project | handlers/real_time.go:95-110 | A live vehicle copies every field of its feed entity: vehicle id and label, route, trip, latitude, longitude, bearing, occupancy status and percentage, stop, stop sequence, direction, timestamp and status. |
| RealTime.GetLiveVehicles | handlers/real_time.go:63-117 | A cache hit is returned unchanged with no write. A feed error is a 500 with its text and no write. Otherwise the reply is a JSON array, never `null`. It holds exactly the projections of the feed vehicles on the route, in feed order, and is cached under `live:<route>` for 10 s. |
| RealTime.GetAlerts | handlers/real_time.go:147-182 | A cache hit is returned unchanged. A feed error is a 500 with no write. Otherwise every feed entity is returned in order, and the list is cached under `alerts:all` for 60 s. |
| RealTime.GetTripUpdates | handlers/real_time.go:202-241 | A cache hit is returned unchanged. A feed error is a 500 with no write. Otherwise the reply is the order-preserving sub-list of the updates on the route, cached under `trip-updates:<route>` for 10 s. |
| Connectivity.SameStopNeverConnects | handlers/route_connectivity.go:60-71 | The strict `<` in the HAVING clause means no route connects a stop to itself. |
| Connectivity.TripMin | handlers/route_connectivity.go:62-66 | A trip's least sequence at a stop is absent exactly when the trip has no sequenced visit there. Otherwise it is the minimum. |
| Connectivity.AddTripKeepsMinima | handlers/route_connectivity.go:60-69 | Folding in one more trip keeps, per route, the minimum of the stop's sequences over trips that also visit the other stop. |
| Connectivity.HavingIsConnects | handlers/route_connectivity.go:68-69 | Let both per-route minima be computed. The HAVING comparison selects a route exactly when it connects `from` to `to`. |
| Connectivity.ConnectingRouteIds | handlers/route_connectivity.go:60-71 | The query returns each connecting route exactly once, in ascending code-point order. |
| Connectivity.GetStopConnectivity | handlers/route_connectivity.go:20-105 | A missing parameter is a 400 before anything else. A cache hit comes next. Then a missing from-stop, then a missing to-stop, is a 404. Each driver error (from-stop check, to-stop check, query) is a 500 with its text that caches nothing. The reply is 200 exactly when both parameters are given and either the cache hits or no driver error occurs and both stops exist. Then the entries list exactly the connecting routes, ascending, with both stop ids and `is_connected` set, and are cached under the pair's key. |
| FavoritesStore.AddFavorite | models/favorites.go:12-21 | An insert fault is returned as the error. Otherwise exactly one row is appended for the given user, item and type, under a fresh id. The returned favourite carries that id and no item name. |
| FavoritesStore.AddKeepsValid | models/favorites.go:14-18 | Adding keeps every id distinct and below the next id. |
| FavoritesStore.ItemName | models/favorites.go:25-28 | Only a route favourite gets a joined name. It is the route's long name when that is not NULL, else its short name. It is absent when both are NULL or the route is unknown. |
| FavoritesStore.SortByIdDesc | models/favorites.go:30 | The result is a permutation of its input in non-increasing id order. |
| FavoritesStore.GetFavorites | models/favorites.go:23-55 | A query fault is returned as the error. The result is JSON `null` exactly when the user has no favourites. Otherwise it is a permutation of the user's rows with their joined names, ordered by id descending. |
| FavoritesStore.ListedMembers | models/favorites.go:24-47 | A favourite is listed exactly when it is the view of one of the user's rows. |
| FavoritesStore.ListStrictlyDescending | models/favorites.go:30 | With distinct ids the list is strictly descending by id. |
| FavoritesStore.AddThenListed | models/favorites.go:12-55 | After an add, listing the user shows the new favourite exactly once, with the given item and type. |
| FavoritesStore.DeleteFavorite | models/favorites.go:57-64 | A fault is returned as the error. Otherwise the rows left are exactly those not matching user, item and type together, and the id counter is untouched. |
| FavoritesStore.DeleteKeepsOrder | models/favorites.go:58-61 | Deleting keeps the surviving rows in their original order. |
| FavoritesStore.DeleteKeepsValid | models/favorites.go:58-61 | Deleting keeps ids distinct and below the next id. |
| FavoritesStore.DeleteAbsentUnchanged | models/favorites.go:58-63 | Deleting a favourite that does not exist succeeds and changes nothing. |
| FavoritesStore.DeleteThenAbsent | models/favorites.go:23-64 | After a delete, the user's list no longer shows that item and type. |
| FavoritesApi.Atoi | handlers/favorites.go:14-19 | The user id parses exactly when it is an optional sign followed by a non-empty run of decimal digits whose signed value fits in an int64, and the result is that signed value. Digits out of range give the "value out of range" text, anything else (the empty string included) "invalid syntax", both naming the input. |
| FavoritesApi.AddFavoriteHandler | handlers/favorites.go:12-44 | The checks run in order: user id, body, type (route or stop), store. Each failure gives its 400 or 500 and leaves the store unchanged. It returns 200 exactly when all pass, and then appends one row for the parsed user. The returned favourite carries the new row's id, the requested item type and item id, and no name; in a valid store that id is fresh. |
| FavoritesApi.GetFavoritesHandler | handlers/favorites.go:46-63 | A bad id is a 400 and a fault a 500. It returns 200 exactly otherwise, with the user's list, which may be `null`. |
| FavoritesApi.DeleteFavoriteHandler | handlers/favorites.go:65-91 | A bad id or an unknown type is a 400, and a fault is a 500, all with the store unchanged. Otherwise the reply is 200 "Favorite deleted successfully", and exactly the matching rows are removed. |
| FavoritesApi.AddThenGetThroughApi | handlers/favorites.go:12-63 | Posting a favourite for a user id and then listing that id through the API shows the new favourite. |
| FavoritesApi.DeleteThenGetThroughApi | handlers/favorites.go:46-91 | Deleting through the API always succeeds for a valid id and type, and the following listing no longer shows the item. |
| ClientRoutes.CategoryOf | frontend/app.js:292-297 | Route types 1, 0, 2 and 3 select the subway, light rail, rail and bus lists. Every other type selects none. |
| ClientRoutes.DisplayRoutes | frontend/app.js:276-304 | A non-array or empty reply puts the placeholder in all four lists. A list that is shown is never empty. |
| ClientRoutes.GroupMembers | frontend/app.js:283-297 | A route appears in a category's list exactly when the reply is an array containing it and its type selects that category. |
| ClientRoutes.GroupsKeepOrder | frontend/app.js:292-297 | Each list is the order-preserving sub-list of the routes of its type. |
| ClientRoutes.ExactlyOneGroup | frontend/app.js:292-297 | A route of a known type appears in exactly one list. A route of any other type appears in none. |
| ClientRoutes.RouteTypeName | frontend/app.js:327-335 | Type 0 is named "Light Rail", 1 "Subway", 2 "Rail" and 3 "Bus". The name is "Unknown" exactly for the types no list shows. |
| ClientRoutes.NamedIffListed | frontend/app.js:292-335 | A route has a type name other than "Unknown" exactly when it is listed in some category. |
| ClientRoutes.RouteLabel | frontend/app.js:319 | The label is never empty. It is the long name if non-empty, else the short name if non-empty, else "Unnamed Route". |
| ClientRoutes.FilterRoutes | frontend/app.js:337-351 | An empty lower-cased term shows all routes. Any result is a sub-collection of all routes. |
| ClientRoutes.FilterRoutesMembers | frontend/app.js:345-348 | For a non-empty term, a route is kept exactly when its lower-cased long or short name contains the lower-cased term. |
| ClientRoutes.FilterKeepsOrder | frontend/app.js:345-348 | The search keeps the matching routes in their original order. |
| ClientRoutes.SearchIgnoresCase | frontend/app.js:338 | Searching for a term, its upper-case or its lower-case form gives the same routes. |
| ClientRoutes.SearchView | frontend/app.js:337-343 | An empty term redraws the full grouping. |
| ClientRoutes.SearchViewMembers | frontend/app.js:337-351 | After a search, a route appears in a category's list exactly when it matches and its type selects that category. |
| ClientLive.Enrich | frontend/app.js:481-496 | Enrichment keeps every vehicle in order. A vehicle gains the looked-up stop name exactly when it has a stop id and the lookup succeeds. |
| ClientLive.EnrichSplits | frontend/app.js:481-496 | Each vehicle is enriched on its own, independently of the others. |
| ClientLive.LocationAfterEnrich | frontend/app.js:481-500 | A listed vehicle's location is its looked-up stop name when the vehicle has a stop id and the lookup gives a non-empty name, otherwise "Stop ID: " and its stop id. |
| ClientLive.StatusText | frontend/app.js:512-525 | The three known statuses read "Arriving at", "Stopped at" and "In transit to". Any other status is echoed. The text always ends with the location. |
| ClientLive.ReadableStatus | frontend/app.js:506-507 | The readable status has the same length as the input. Underscores become spaces and letters are lower-cased, with the first character upper-cased. |
| ClientLive.OccupancyText | frontend/app.js:503-509 | An empty occupancy status reads "No occupancy data available". Otherwise the text is the readable status followed by " (<percentage>%)". |
| ClientLive.ManySeatsAvailable | frontend/app.js:503-509 | `MANY_SEATS_AVAILABLE` at 0 % reads "Many seats available (0%)". |
| ClientLive.LiveTab | frontend/app.js:468-538 | A rejected fetch or a non-OK reply shows "Error loading live: ..." with the matching message. A non-array or empty reply shows the placeholder. Otherwise one card per vehicle is shown, in order: the k-th card has the k-th vehicle's id, its status text at its stop label (looked-up name or "Stop ID: <id>"), "Outbound" for direction 0 and "Inbound" otherwise, and its occupancy text. |
| ClientLive.LiveStatusNamesStop | frontend/app.js:481-525 | On the live tab, every vehicle's status line ends with its stop label. A vehicle with no stop id, or whose stop lookup failed, is shown at "Stop ID: <id>". |
| ClientAlerts.RouteAlerts | frontend/app.js:554-557 | An alert is kept exactly when it has an alert body with informed entities and one of them names the route. |
| ClientAlerts.RouteAlertsKeepOrder | frontend/app.js:554-557 | The relevant alerts keep their feed order. |
| ClientAlerts.Render | frontend/app.js:566-568 | The header is the text of the header's first translation when that exists and is non-empty, else "No header". The description is the text of the description's first translation under the same condition, else empty. The effect is the alert's effect when non-empty, else "Unknown". |
| ClientAlerts.ListRelevant | frontend/app.js:554-576 | "No alerts for this route" is shown exactly when no alert is relevant. When some alert is relevant, the panel is a listing of the rendered relevant alerts, in feed order. |
| ClientAlerts.RouteAlertsTab | frontend/app.js:540-583 | A rejected fetch or a non-OK reply shows "Error loading alerts: ...". A non-array or empty reply shows "No alerts available for this route". For a non-empty array the tab says there are none exactly when no alert is relevant, and otherwise is a listing of exactly the rendered relevant alerts, in order. |
| ClientAlerts.FavoriteRouteAlertsTab | frontend/app.js:840-877 | Errors are shown as on the route tab. A non-array reply raises a TypeError. For an array, even an empty one, the tab says there are none exactly when no alert is relevant, and otherwise is a listing of exactly the rendered relevant alerts, in order. |
| ClientAlerts.TabsAgree | frontend/app.js:540-583 | The two alert tabs agree on every fetch failure and on every non-empty array. They differ on an empty array and on a non-array reply. |
| ClientFavorites.DisplayName | frontend/app.js:610 | A favourite shows its item name when non-empty, else its upper-cased type, " - ", and its item id. |
| ClientFavorites.FavoritesList | frontend/app.js:585-650 | Any failure shows "Failed to load favorites". A non-array or empty reply shows the placeholder. Otherwise each favourite is shown in order by its display name, and only routes are expandable. |
| ClientFavorites.NoFavoritesPlaceholder | frontend/app.js:602-605 | A user with no favourites, whose server reply is JSON `null`, sees the "No favorites yet" placeholder. |
| ClientFavorites.StopFavoriteName | frontend/app.js:610 | A stop favourite never gets a joined name, so the client always shows it as "STOP - <id>". |
| ClientFavorites.RouteFavoriteName | frontend/app.js:610 | A listed route favourite shows its route's non-empty long name. With a NULL long name it shows the non-empty short name. With an empty, non-NULL long name it reads "ROUTE - <id>". |
| Text.ParseIntRoundTrip | handlers/favorites.go:15 | Parsing the decimal form of any int64 yields that number. |
| Text.ParseIntMeaning | handlers/favorites.go:15 | Base-10 int64 parsing succeeds exactly on an optional sign followed by digits whose signed value fits in 64 bits, yields that value, and reports a range error for well-formed digits out of range. |

## Left out

- Network, file and database I/O are parameters. This covers the HTTP feeds, `os.Open`, the CSV tokenizer, Redis and the SQL driver.
  - A Redis read error or expiry is modelled as a cache miss.
  - A Redis write error is ignored, as in the source.
  - TTLs are carried as numbers and not simulated.
- Floating-point values are opaque 64-bit patterns. `strconv.ParseFloat` is a parameter.
- The decoding of the feed JSON is not modelled. A decode failure is folded into the feed's error result.
- The schema constraints that can reject an insert are an acceptance predicate. The `stop_times` conflict target, which the schema decides, is a key function parameter. This assumes the table carries some unique constraint: without one, `ON CONFLICT DO NOTHING` never fires and identical rows are all inserted, which the model does not describe.
- A failed insert consuming a `SERIAL` value is not modelled.
- Parser.LoadFrom: `encoding/csv` rejects rows whose field count differs from the header. So in the source a short data row can only come from a short header. The model allows any row to be short.
- FavoritesStore.GetFavorites: the result is stated as a permutation ordered by id, not as one fixed sequence. Ids are distinct in any valid store, so the order is fully determined (`FavoritesStore.ListStrictlyDescending`).
- Connectivity.GetStopConnectivity: an error from `rows.Scan` or a row-iteration error is not modelled.
  - With the HAVING clause, `rows.Scan` cannot meet a NULL.
  - A row-iteration error is not checked by the source either.
- FavoritesApi.Atoi: Go quotes the input with `strconv.Quote`. The model encloses it in plain double quotes without escaping.
- Case mapping (`toLowerCase`, `toUpperCase`) covers ASCII letters only, not full Unicode.
- Connectivity.ConnectingRouteIds: `ORDER BY t.route_id` is modelled as code-point order on the id text, which is the database's order only under the C collation. Under another collation (a locale-aware one, say) the same routes come back in a different order; the set of routes is unaffected.
- HTML, the DOM, styling, click handlers and `showMessage` are left out. The client functions return the data a panel shows.
- ClientAlerts.FavoriteRouteAlertsTab: the TypeError raised on a non-array reply is shown as a distinct panel, `TypeErrorShown`. The browser's message text is not modelled.
- ClientFavorites.FavoritesList: the server's error text, and the toast that shows it, are not modelled. Only the list's own failure text is.
- Client functions outside the route list, live, alerts and favourites views are not part of this model. This covers route selection, tabs, the stops tab, user login and creation, and adding and deleting from the client.
- The live-vehicle tab of a favourite route (frontend/app.js:770-838) is not modelled separately from `ClientLive.LiveTab`. Its cards have no Direction line; the placeholder, status and occupancy texts are the same.
- The other handlers (routes, stops, trips, users) are not part of this model, nor is the router.

=== FILE: cache_keys.dfy ===
/** The keys under which the handlers store their responses in the shared
    cache. One cache serves every handler, so keys of different handlers
    must never meet. */
module CacheKeys {
  import opened Text

  /** `fmt.Sprintf("live:%s", routeID)` in `GetLiveVehicles`. */
  function LiveKey(routeId: string): string { "live:" + routeId }

  /** The fixed key of `GetAlerts`. */
  const AlertsKey: string := "alerts:all"

  /** `fmt.Sprintf("trip-updates:%s", routeID)` in `GetTripUpdates`. */
  function TripUpdatesKey(routeId: string): string { "trip-updates:" + routeId }

  /** `fmt.Sprintf("stop_connectivity:%s:%s", from, to)` in
      `GetStopConnectivity`. */
  function ConnectivityKey(from: string, to: string): string { "stop_connectivity:" + from + ":" + to }

  /** A route's live-vehicle key and trip-update key name that route and no
      other, and keys of the three feed handlers never coincide. */
  lemma FeedKeysDistinct(a: string, b: string, c: string)
    ensures LiveKey(a) == LiveKey(b) <==> a == b
    ensures TripUpdatesKey(a) == TripUpdatesKey(b) <==> a == b
    ensures LiveKey(a) != TripUpdatesKey(b)
    ensures LiveKey(a) != AlertsKey && TripUpdatesKey(a) != AlertsKey
    ensures LiveKey(a) != ConnectivityKey(b, c) && TripUpdatesKey(a) != ConnectivityKey(b, c)
  {
    if LiveKey(a) == LiveKey(b) {
      assert a == LiveKey(a)[5..] && b == LiveKey(b)[5..];
    }
    if TripUpdatesKey(a) == TripUpdatesKey(b) {
      assert a == TripUpdatesKey(a)[13..] && b == TripUpdatesKey(b)[13..];
    }
    assert LiveKey(a)[0] == 'l' && TripUpdatesKey(b)[0] == 't' && AlertsKey[0] == 'a';
    assert ConnectivityKey(b, c)[0] == 's';
  }

  /** The connectivity key tells stop pairs apart as long as the from-stop
      contains no colon. */
  lemma {:induction false} ConnectivityKeyInjective(f1: string, t1: string, f2: string, t2: string)
    requires ':' !in f1 && ':' !in f2
    requires ConnectivityKey(f1, t1) == ConnectivityKey(f2, t2)
    ensures f1 == f2 && t1 == t2
  {
    var k1, k2 := ConnectivityKey(f1, t1)[18..], ConnectivityKey(f2, t2)[18..];
    assert k1 == f1 + ":" + t1 && k2 == f2 + ":" + t2;
    assert k1 == k2;
    ColonAfterStop(f1, t1);
    ColonAfterStop(f2, t2);
    assert |f1| == |f2|;
    assert f1 == k1[..|f1|] == k2[..|f2|] == f2;
    assert t1 == k1[|f1| + 1..] == k2[|f2| + 1..] == t2;
  }

  /** In `f + ":" + t` with no colon in `f`, the first colon sits at `|f|`. */
  lemma ColonAfterStop(f: string, t: string)
    requires ':' !in f
    ensures (f + ":" + t)[|f|] == ':'
    ensures forall i :: 0 <= i < |f| ==> (f + ":" + t)[i] != ':'
  {
    forall i | 0 <= i < |f| ensures (f + ":" + t)[i] != ':' {
      assert (f + ":" + t)[i] == f[i];
    }
  }

  /** Without that condition two different stop pairs share one key: a
      cached answer for the pair ("a:b", "c") is served for ("a", "b:c"). */
  lemma ConnectivityKeyCollides()
    ensures ConnectivityKey("a:b", "c") == ConnectivityKey("a", "b:c")
  {
  }
}

=== FILE: client_alerts.dfy ===
/** The "Alerts" tab of the browser client, in its two versions: the one
    for the selected route (`loadRouteAlerts`) and the one inside an
    expanded favorite route (`loadFavoriteRouteAlerts`). Both fetch the
    whole alert feed and keep the alerts that name the route. */
module ClientAlerts {
  import opened Wrappers
  import opened Seqs
  import opened Js

  /** An alert as the client sees it in the JSON of `GET /alerts`. A Go nil
      slice arrives as `null`, so the array fields may be absent. */
  datatype JsTranslation = JsTranslation(text: string)
  datatype JsTranslated = JsTranslated(translation: Option<seq<JsTranslation>>)
  datatype JsInformed = JsInformed(route_id: string, stop_id: string)
  datatype JsAlertBody = JsAlertBody(
    header_text: Option<JsTranslated>,
    description_text: Option<JsTranslated>,
    effect: string,
    informed_entity: Option<seq<JsInformed>>)
  datatype JsAlert = JsAlert(id: string, alert: Option<JsAlertBody>)

  /** `informed_entity.some(entity => entity.route_id === routeId)`. */
  predicate NamesRoute(entities: seq<JsInformed>, routeId: string) {
    exists k :: 0 <= k < |entities| && entities[k].route_id == routeId
  }

  /** The filter of both versions: an alert without an `alert` object or
      without `informed_entity` is dropped, not an error. */
  function RelevantTo(routeId: string): JsAlert -> bool {
    (a: JsAlert) =>
      a.alert.Some? && a.alert.value.informed_entity.Some?
      && NamesRoute(a.alert.value.informed_entity.value, routeId)
  }

  /** The alerts for a route, in feed order. */
  function RouteAlerts(alerts: seq<JsAlert>, routeId: string): (r: seq<JsAlert>)
    ensures forall a :: a in r <==>
      a in alerts && a.alert.Some? && a.alert.value.informed_entity.Some?
      && exists e :: e in a.alert.value.informed_entity.value && e.route_id == routeId
  {
    Filter(alerts, RelevantTo(routeId))
  }

  lemma RouteAlertsKeepOrder(alerts: seq<JsAlert>, routeId: string)
    ensures SubsequenceOf(alerts, RouteAlerts(alerts, routeId), RelevantTo(routeId))
  {
    FilterSelects(alerts, RelevantTo(routeId));
  }

  /** `t?.translation?.[0]?.text`, with a missing value read as "". */
  function FirstText(t: Option<JsTranslated>): (s: string)
    ensures s != "" ==> t.Some? && t.value.translation.Some? && |t.value.translation.value| > 0
                        && s == t.value.translation.value[0].text
    ensures t.Some? && t.value.translation.Some? && |t.value.translation.value| > 0 ==>
      s == t.value.translation.value[0].text
  {
    if t.Some? && t.value.translation.Some? && |t.value.translation.value| > 0
    then t.value.translation.value[0].text
    else ""
  }

  /** One rendered alert. */
  datatype AlertView = AlertView(header: string, description: string, effect: string)

  /** There is a first translation and its text is not empty. */
  predicate HasFirstText(t: Option<JsTranslated>) {
    t.Some? && t.value.translation.Some? && |t.value.translation.value| > 0
    && t.value.translation.value[0].text != ""
  }

  /** The header defaults to "No header", the effect to "Unknown"; an empty
      description is left out. */
  function Render(a: JsAlert): (view: AlertView)
    requires a.alert.Some?
    ensures view.header != "" && view.effect != ""
    ensures HasFirstText(a.alert.value.header_text) ==>
      view.header == a.alert.value.header_text.value.translation.value[0].text
    ensures !HasFirstText(a.alert.value.header_text) ==> view.header == "No header"
    ensures HasFirstText(a.alert.value.description_text) ==>
      view.description == a.alert.value.description_text.value.translation.value[0].text
    ensures !HasFirstText(a.alert.value.description_text) ==> view.description == ""
    ensures a.alert.value.effect != "" ==> view.effect == a.alert.value.effect
    ensures a.alert.value.effect == "" ==> view.effect == "Unknown"
  {
    var body := a.alert.value;
    var header := FirstText(body.header_text);
    AlertView(if header != "" then header else "No header",
              FirstText(body.description_text),
              if body.effect != "" then body.effect else "Unknown")
  }

  function RenderAll(alerts: seq<JsAlert>): (views: seq<AlertView>)
    requires forall k :: 0 <= k < |alerts| ==> alerts[k].alert.Some?
    ensures |views| == |alerts|
    ensures forall k :: 0 <= k < |alerts| ==> views[k] == Render(alerts[k])
  {
    seq(|alerts|, k requires 0 <= k < |alerts| => Render(alerts[k]))
  }

  const NoAlertsAvailable := "No alerts available for this route"
  const NoAlertsForRoute := "No alerts for this route"
  const FailedToLoadAlerts := "Failed to load alerts"

  /** `loadRouteAlerts`: errors are caught and shown in the tab; a reply
      that is not an array, or is empty, gets one placeholder, a feed with
      no alert for the route another. */
  function RouteAlertsTab(response: Fetched<JsAlert>, routeId: string): (p: Panel<AlertView>)
    ensures response.Rejected? ==> p == ErrorText("Error loading alerts: " + response.message)
    ensures response.NotOk? ==> p == ErrorText("Error loading alerts: " + FailedToLoadAlerts)
    ensures response.OkJson? && (response.json.NotArray? || response.json.elems == []) ==>
      p == Placeholder(NoAlertsAvailable)
    ensures response.OkJson? && response.json.Array? && response.json.elems != [] ==>
      (p == Placeholder(NoAlertsForRoute) <==> RouteAlerts(response.json.elems, routeId) == [])
    ensures response.OkJson? && response.json.Array? && RouteAlerts(response.json.elems, routeId) != [] ==>
      p.Listing?
    ensures p.Listing? ==>
      && response.OkJson? && response.json.Array?
      && Selects(response.json.elems, p.items, RelevantTo(routeId), RenderIfPresent)
  {
    match response
    case Rejected(message) => ErrorText("Error loading alerts: " + message)
    case NotOk(_) => ErrorText("Error loading alerts: " + FailedToLoadAlerts)
    case OkJson(json) =>
      if json.NotArray? || json.elems == [] then Placeholder(NoAlertsAvailable)
      else ListRelevant(json.elems, routeId)
  }

  /** `Render` for alerts that carry an `alert` object (all kept ones do). */
  function RenderIfPresent(a: JsAlert): AlertView {
    if a.alert.Some? then Render(a) else AlertView("No header", "", "Unknown")
  }

  /** The shared tail of both versions, once the reply is an array. */
  function ListRelevant(alerts: seq<JsAlert>, routeId: string): (p: Panel<AlertView>)
    ensures p == Placeholder(NoAlertsForRoute) <==> RouteAlerts(alerts, routeId) == []
    ensures p.Placeholder? || p.Listing?
    ensures RouteAlerts(alerts, routeId) != [] ==> p.Listing?
    ensures p.Listing? ==> Selects(alerts, p.items, RelevantTo(routeId), RenderIfPresent)
  {
    var kept := RouteAlerts(alerts, routeId);
    if kept == [] then Placeholder(NoAlertsForRoute)
    else
      RouteAlertsKeepOrder(alerts, routeId);
      var views := RenderAll(kept);
      assert forall k :: 0 <= k < |kept| ==> views[k] == RenderIfPresent(kept[k]);
      SelectsFromPicked(alerts, kept, views, RelevantTo(routeId), RenderIfPresent);
      Listing(views)
  }

  /** Mapping a selected sub-sequence gives a selection with the mapping. */
  lemma SelectsFromPicked<A, B>(xs: seq<A>, kept: seq<A>, ys: seq<B>, keep: A -> bool, f: A -> B)
    requires SubsequenceOf(xs, kept, keep)
    requires |ys| == |kept| && forall k :: 0 <= k < |kept| ==> ys[k] == f(kept[k])
    ensures Selects(xs, ys, keep, f)
  {
    var idx :| KeptPositions(xs, keep, idx) && PickedAt(xs, kept, idx);
    assert MappedAt(xs, ys, f, idx);
  }

  /** `loadFavoriteRouteAlerts` inside `loadFavoriteRouteTabContent`: no
      array check, so a reply that is not an array ends in a `TypeError`,
      and an empty feed reads "No alerts for this route". */
  function FavoriteRouteAlertsTab(response: Fetched<JsAlert>, routeId: string): (p: Panel<AlertView>)
    ensures response.Rejected? ==> p == ErrorText("Error loading alerts: " + response.message)
    ensures response.NotOk? ==> p == ErrorText("Error loading alerts: " + FailedToLoadAlerts)
    ensures response.OkJson? && response.json.NotArray? ==> p == TypeErrorShown
    ensures response.OkJson? && response.json.Array? ==>
      (p == Placeholder(NoAlertsForRoute) <==> RouteAlerts(response.json.elems, routeId) == [])
    ensures response.OkJson? && response.json.Array? && RouteAlerts(response.json.elems, routeId) != [] ==>
      p.Listing?
    ensures p.Listing? ==>
      && response.OkJson? && response.json.Array?
      && Selects(response.json.elems, p.items, RelevantTo(routeId), RenderIfPresent)
  {
    match response
    case Rejected(message) => ErrorText("Error loading alerts: " + message)
    case NotOk(_) => ErrorText("Error loading alerts: " + FailedToLoadAlerts)
    case OkJson(json) =>
      if json.NotArray? then TypeErrorShown
      else ListRelevant(json.elems, routeId)
  }

  /** The two versions show the same thing for a non-empty feed, and differ
      on an empty or non-array one. */
  lemma TabsAgree(response: Fetched<JsAlert>, routeId: string)
    ensures (response.OkJson? && response.json.Array? && response.json.elems != []) || !response.OkJson? ==>
      RouteAlertsTab(response, routeId) == FavoriteRouteAlertsTab(response, routeId)
    ensures response.OkJson? && (response.json.NotArray? || response.json.elems == []) ==>
      RouteAlertsTab(response, routeId) != FavoriteRouteAlertsTab(response, routeId)
  {
  }
}

=== FILE: client_favorites.dfy ===
/** The favorites list of the browser client, fed by `GET
    /users/:id/favorites`. */
module ClientFavorites {
  import opened Wrappers
  import opened Text
  import opened Js
  import opened Parser
  import opened FavoritesStore

  /** `fav.item_name || fav.type.toUpperCase() + ' - ' + fav.item_id`; an
      empty name (or one the server omitted) falls back. */
  function DisplayName(f: Favorite): (name: string)
    ensures f.item_name != "" ==> name == f.item_name
    ensures f.item_name == "" ==>
      && |name| == |f.item_type| + 3 + |f.item_id|
      && name[..|f.item_type|] == Upper(f.item_type)
      && name[|f.item_type|..|f.item_type| + 3] == " - "
      && name[|f.item_type| + 3..] == f.item_id
  {
    if f.item_name != "" then f.item_name
    else
      var n := Upper(f.item_type) + " - " + f.item_id;
      assert n[..|f.item_type|] == Upper(f.item_type);
      assert n[|f.item_type|..|f.item_type| + 3] == " - ";
      assert n[|f.item_type| + 3..] == f.item_id;
      n
  }

  /** One list entry; a route favorite can be expanded into its tabs. */
  datatype FavoriteView = FavoriteView(name: string, expandable: bool)

  function Render(f: Favorite): FavoriteView {
    FavoriteView(DisplayName(f), f.item_type == "route")
  }

  const NoFavoritesYet := "No favorites yet. Add some routes to get started!"
  const FailedToLoadFavorites := "Failed to load favorites"

  /** `loadFavorites`: any failure shows a fixed error line; a reply that
      is not an array, or is empty, shows the placeholder. */
  function FavoritesList(response: Fetched<Favorite>): (p: Panel<FavoriteView>)
    ensures !response.OkJson? ==> p == ErrorText(FailedToLoadFavorites)
    ensures response.OkJson? && (response.json.NotArray? || response.json.elems == []) ==>
      p == Placeholder(NoFavoritesYet)
    ensures response.OkJson? && response.json.Array? && response.json.elems != [] ==>
      && p.Listing? && |p.items| == |response.json.elems|
      && forall k :: 0 <= k < |p.items| ==>
           p.items[k] == FavoriteView(DisplayName(response.json.elems[k]), response.json.elems[k].item_type == "route")
  {
    match response
    case OkJson(json) =>
      if json.NotArray? || json.elems == [] then Placeholder(NoFavoritesYet)
      else Listing(seq(|json.elems|, k requires 0 <= k < |json.elems| => Render(json.elems[k])))
    case _ => ErrorText(FailedToLoadFavorites)
  }

  /** A user without favorites gets JSON `null` from the server, which the
      client shows as the placeholder, not as an empty list. */
  lemma NoFavoritesPlaceholder(st: Store, routes: seq<RouteRecord>, userId: int)
    requires KeysUnique(routes, RouteId)
    requires forall k :: 0 <= k < |st.rows| ==> st.rows[k].user_id != userId
    ensures FavoritesList(OkJson(FromJsonList(GetFavorites(st, routes, userId, None).value)))
      == Placeholder(NoFavoritesYet)
  {
  }

  /** A stop favorite has no joined name, so it reads "STOP - <id>". */
  lemma StopFavoriteName(routes: seq<RouteRecord>, row: FavoriteRow)
    requires KeysUnique(routes, RouteId)
    requires row.item_type == "stop"
    ensures DisplayName(ViewOf(routes)(row)) == "STOP - " + row.item_id
  {
    assert Upper("stop") == "STOP";
  }

  /** A route favorite whose route has a non-empty long name shows that
      name. The join takes the first non-NULL name, and the loader stores an
      empty long name as '' rather than NULL, so such a route reads
      "ROUTE - <id>" even when it has a short name. */
  lemma {:induction false} RouteFavoriteName(st: Store, routes: seq<RouteRecord>, userId: int, f: Favorite, r: RouteRecord)
    requires KeysUnique(routes, RouteId)
    requires GetFavorites(st, routes, userId, None).value.List?
    requires f in GetFavorites(st, routes, userId, None).value.elems && f.item_type == "route"
    requires r in routes && r.route_id == f.item_id
    ensures r.route_long_name.Some? && r.route_long_name.value != "" ==> DisplayName(f) == r.route_long_name.value
    ensures r.route_long_name.None? && r.route_short_name.Some? && r.route_short_name.value != "" ==>
      DisplayName(f) == r.route_short_name.value
    ensures r.route_long_name == Some("") ==> DisplayName(f) == "ROUTE - " + f.item_id
  {
    ListedMembers(st, routes, userId);
    var k :| 0 <= k < |st.rows| && st.rows[k].user_id == userId && f == ViewOf(routes)(st.rows[k]);
    var j :| 0 <= j < |routes| && routes[j] == r;
    if r.route_long_name == Some("") {
      RouteFallbackName(f);
    }
  }

  /** The fallback label of an unnamed route favorite. */
  lemma RouteFallbackName(f: Favorite)
    requires f.item_name == "" && f.item_type == "route"
    ensures DisplayName(f) == "ROUTE - " + f.item_id
  {
    var n := DisplayName(f);
    assert n[..5] == "ROUTE" by {
      forall i | 0 <= i < 5 ensures n[..5][i] == "ROUTE"[i] {
        assert n[..5][i] == UpperChar(f.item_type[i]);
      }
    }
    assert n == n[..5] + n[5..8] + n[8..];
  }
}

=== FILE: client_live.dfy ===
/** The "Live Vehicles" tab of the browser client: each vehicle of
    `GET /live/:route_id` is enriched with its stop's name, then rendered as
    a status line, a direction and an occupancy line. */
module ClientLive {
  import opened Wrappers
  import opened Text
  import opened Seqs
  import opened Js
  import RealTime

  type LiveVehicle = RealTime.LiveVehicle

  /** A vehicle after enrichment: `{ ...vehicle, stop_name }` when the stop
      lookup succeeded, the vehicle itself otherwise. */
  datatype ClientVehicle = ClientVehicle(vehicle: LiveVehicle, stop_name: Option<string>)

  /** `fetch('/stops/' + id)` and its `stop_name`: `None` when the request
      rejects or the status is not 2xx. */
  type StopLookup = string -> Option<string>

  /** One element of the `Promise.all` map: only a vehicle with a non-empty
      `stop_id` is looked up, and a failed lookup is swallowed. */
  function EnrichOne(lookup: StopLookup): LiveVehicle -> ClientVehicle {
    (v: LiveVehicle) =>
      if v.stop_id != "" && lookup(v.stop_id).Some? then ClientVehicle(v, lookup(v.stop_id))
      else ClientVehicle(v, None)
  }

  /** `await Promise.all(vehicles.map(...))`: the results in input order,
      whatever order the lookups complete in. */
  function Enrich(vehicles: seq<LiveVehicle>, lookup: StopLookup): (r: seq<ClientVehicle>)
    ensures |r| == |vehicles|
    ensures forall k :: 0 <= k < |r| ==> r[k].vehicle == vehicles[k]
    ensures forall k :: 0 <= k < |r| ==>
      (r[k].stop_name.Some? <==> vehicles[k].stop_id != "" && lookup(vehicles[k].stop_id).Some?)
    ensures forall k :: 0 <= k < |r| && r[k].stop_name.Some? ==> r[k].stop_name == lookup(vehicles[k].stop_id)
  {
    Map(vehicles, EnrichOne(lookup))
  }

  /** Enrichment treats each vehicle on its own: enriching two batches and
      joining them is enriching the joined batch. */
  lemma EnrichSplits(a: seq<LiveVehicle>, b: seq<LiveVehicle>, lookup: StopLookup)
    ensures Enrich(a + b, lookup) == Enrich(a, lookup) + Enrich(b, lookup)
  {
    var l, r := Enrich(a + b, lookup), Enrich(a, lookup) + Enrich(b, lookup);
    forall k | 0 <= k < |l| ensures l[k] == r[k] {
      if k < |a| {
        assert (a + b)[k] == a[k];
      } else {
        assert (a + b)[k] == b[k - |a|];
      }
    }
  }

  /** `vehicle.stop_name || 'Stop ID: ' + vehicle.stop_id`. */
  function Location(cv: ClientVehicle): (s: string)
    ensures cv.stop_name.Some? && cv.stop_name.value != "" ==> s == cv.stop_name.value
    ensures cv.stop_name.None? || cv.stop_name.value == "" ==> s == "Stop ID: " + cv.vehicle.stop_id
  {
    if cv.stop_name.Some? && cv.stop_name.value != "" then cv.stop_name.value
    else "Stop ID: " + cv.vehicle.stop_id
  }

  /** Where a vehicle is shown to be, stated from the vehicle and the stop
      lookup alone: the stop's name when a lookup of a non-empty stop id
      found a non-empty one, and "Stop ID: <id>" otherwise. */
  function StopLabel(v: LiveVehicle, lookup: StopLookup): string {
    if v.stop_id != "" && lookup(v.stop_id).Some? && lookup(v.stop_id).value != "" then lookup(v.stop_id).value
    else "Stop ID: " + v.stop_id
  }

  /** Enriching and then reading the location agrees with `StopLabel`. */
  lemma LocationAfterEnrich(vehicles: seq<LiveVehicle>, lookup: StopLookup, k: nat)
    requires k < |vehicles|
    ensures Location(Enrich(vehicles, lookup)[k]) == StopLabel(vehicles[k], lookup)
  {
  }

  /** The `switch` on the GTFS Realtime `VehicleStopStatus` name. */
  function StatusText(status: string, location: string): (s: string)
    ensures status == "INCOMING_AT" ==> s == "Arriving at " + location
    ensures status == "STOPPED_AT" ==> s == "Stopped at " + location
    ensures status == "IN_TRANSIT_TO" ==> s == "In transit to " + location
    ensures status !in {"INCOMING_AT", "STOPPED_AT", "IN_TRANSIT_TO"} ==> s == status + " " + location
    ensures |s| > |location| && s[|s| - |location|..] == location
  {
    var prefix :=
      if status == "INCOMING_AT" then "Arriving at "
      else if status == "STOPPED_AT" then "Stopped at "
      else if status == "IN_TRANSIT_TO" then "In transit to "
      else status + " ";
    assert (prefix + location)[|prefix|..] == location;
    prefix + location
  }

  /** `direction_id === 0 ? 'Outbound' : 'Inbound'`. */
  function DirectionText(directionId: int): (s: string)
    ensures s == "Outbound" <==> directionId == 0
    ensures s != "Outbound" ==> s == "Inbound"
  {
    if directionId == 0 then "Outbound" else "Inbound"
  }

  const NoOccupancyData := "No occupancy data available"

  /** The readable form of a GTFS Realtime `OccupancyStatus` name: lowered,
      underscores turned into spaces, first character upper-cased. */
  function ReadableStatus(occupancy: string): (s: string)
    ensures |s| == |occupancy|
    ensures |s| > 0 ==> s[0] == UpperChar(if occupancy[0] == '_' then ' ' else LowerChar(occupancy[0]))
    ensures forall k :: 0 < k < |s| ==> s[k] == if occupancy[k] == '_' then ' ' else LowerChar(occupancy[k])
  {
    Capitalize(ReplaceChar(Lower(occupancy), '_', ' '))
  }

  /** The occupancy line: `"<readable status> (<pct>%)"`, the percentage
      defaulting to 0, or a fixed text when there is no status. */
  function OccupancyText(occupancy: string, percentage: int): (s: string)
    ensures occupancy == "" ==> s == NoOccupancyData
    ensures occupancy != "" ==>
      && |s| > |occupancy|
      && s[..|occupancy|] == ReadableStatus(occupancy)
      && s[|occupancy|..] == " (" + IntToString(percentage) + "%)"
  {
    if occupancy == "" then NoOccupancyData
    else
      var s := ReadableStatus(occupancy) + " (" + IntToString(percentage) + "%)";
      assert s[..|occupancy|] == ReadableStatus(occupancy);
      assert s[|occupancy|..] == " (" + IntToString(percentage) + "%)";
      s
  }

  /** The status named in the GTFS Realtime reference reads naturally. */
  lemma ManySeatsAvailable(status: string)
    requires status == "MANY_SEATS_AVAILABLE"
    ensures OccupancyText(status, 0) == "Many seats available (0%)"
  {
    ReadableManySeats(status);
    assert IntToString(0) == "0";
  }

  lemma ReadableManySeats(status: string)
    requires status == "MANY_SEATS_AVAILABLE"
    ensures ReadableStatus(status) == "Many seats available"
  {
    ReadableFirst(status);
    forall k | 1 <= k < |status| ensures ReadableStatus(status)[k] == "Many seats available"[k] {
      ReadableAt(status, k);
    }
  }

  lemma ReadableFirst(status: string)
    requires status == "MANY_SEATS_AVAILABLE"
    ensures |ReadableStatus(status)| == 20 && ReadableStatus(status)[0] == 'M'
  {
  }

  lemma ReadableAt(status: string, k: nat)
    requires status == "MANY_SEATS_AVAILABLE" && 1 <= k < |status|
    ensures ReadableStatus(status)[k] == "Many seats available"[k]
  {
  }

  /** One rendered vehicle. */
  datatype VehicleView = VehicleView(vehicle_id: string, status: string, direction: string, occupancy: string)

  function Render(cv: ClientVehicle): (view: VehicleView)
    ensures view.vehicle_id == cv.vehicle.vehicle_id
    ensures view.status == StatusText(cv.vehicle.status, Location(cv))
    ensures view.direction == DirectionText(cv.vehicle.direction_id)
    ensures view.occupancy == OccupancyText(cv.vehicle.occupancy_status, cv.vehicle.occupancy_percentage)
  {
    VehicleView(cv.vehicle.vehicle_id, StatusText(cv.vehicle.status, Location(cv)),
                DirectionText(cv.vehicle.direction_id),
                OccupancyText(cv.vehicle.occupancy_status, cv.vehicle.occupancy_percentage))
  }

  const NoLiveVehicles := "No live vehicles available for this route"
  const FailedToLoadLive := "Failed to load live vehicles"

  /** `loadLiveVehicles` inside `loadTabContent('live')`: the tab shows an
      error for a failed request, the placeholder for a non-array or empty
      reply, and otherwise one rendered item per vehicle, in order, each
      with the vehicle's status at its looked-up stop, its direction and
      its occupancy. */
  function LiveTab(response: Fetched<LiveVehicle>, lookup: StopLookup): (p: Panel<VehicleView>)
    ensures response.Rejected? ==> p == ErrorText("Error loading live: " + response.message)
    ensures response.NotOk? ==> p == ErrorText("Error loading live: " + FailedToLoadLive)
    ensures response.OkJson? && (response.json.NotArray? || response.json.elems == []) ==>
      p == Placeholder(NoLiveVehicles)
    ensures response.OkJson? && response.json.Array? && response.json.elems != [] ==>
      && p.Listing?
      && |p.items| == |response.json.elems|
      && forall k :: 0 <= k < |p.items| ==>
           var v := response.json.elems[k];
           && p.items[k].vehicle_id == v.vehicle_id
           && p.items[k].status == StatusText(v.status, StopLabel(v, lookup))
           && p.items[k].direction == DirectionText(v.direction_id)
           && p.items[k].occupancy == OccupancyText(v.occupancy_status, v.occupancy_percentage)
  {
    match response
    case Rejected(message) => ErrorText("Error loading live: " + message)
    case NotOk(_) => ErrorText("Error loading live: " + FailedToLoadLive)
    case OkJson(json) =>
      if json.NotArray? || json.elems == [] then Placeholder(NoLiveVehicles)
      else
        var items := Map(Enrich(json.elems, lookup), Render);
        assert forall k :: 0 <= k < |items| ==>
                 items[k].status == StatusText(json.elems[k].status, StopLabel(json.elems[k], lookup)) by {
          forall k | 0 <= k < |items|
            ensures items[k].status == StatusText(json.elems[k].status, StopLabel(json.elems[k], lookup))
          {
            LocationAfterEnrich(json.elems, lookup, k);
          }
        }
        Listing(items)
  }

  /** Every listed vehicle's status line ends with where the vehicle is:
      its stop's looked-up name, or "Stop ID: <id>" when the vehicle has no
      stop id or the lookup failed or gave an empty name. */
  lemma LiveStatusNamesStop(vehicles: seq<LiveVehicle>, lookup: StopLookup, k: nat)
    requires k < |vehicles|
    ensures var p := LiveTab(OkJson(Array(vehicles)), lookup);
      var v := vehicles[k];
      && p.Listing?
      && var line := p.items[k].status;
      && |line| > |StopLabel(v, lookup)|
      && line[|line| - |StopLabel(v, lookup)|..] == StopLabel(v, lookup)
      && (v.stop_id == "" || lookup(v.stop_id).None? ==> line[|line| - |StopLabel(v, lookup)|..] == "Stop ID: " + v.stop_id)
  {
  }
}

=== FILE: client_routes.dfy ===
/** The routes page of the browser client: routes grouped into four lists
    by GTFS `route_type`, each route labelled by its name, and the search box
    that narrows the lists. */
module ClientRoutes {
  import opened Wrappers
  import opened Text
  import opened Seqs
  import opened Js

  /** A route as `GET /routes` sends it. */
  datatype Route = Route(route_id: string, short_name: string, long_name: string, route_type: int)

  /** The four route lists of the page. */
  datatype Category = Subway | LightRail | Rail | Bus

  /** The `route_type` code each list takes, from the GTFS Schedule
      reference (`routes.txt`): 0 tram or light rail, 1 subway, 2 rail, 3 bus. */
  function TypeCode(c: Category): int {
    match c
    case Subway => 1
    case LightRail => 0
    case Rail => 2
    case Bus => 3
  }

  /** The list a route type belongs to, if any. */
  function CategoryOf(routeType: int): (c: Option<Category>)
    ensures c.Some? ==> TypeCode(c.value) == routeType
    ensures c.None? ==> forall d: Category :: TypeCode(d) != routeType
  {
    if routeType == 1 then Some(Subway)
    else if routeType == 0 then Some(LightRail)
    else if routeType == 2 then Some(Rail)
    else if routeType == 3 then Some(Bus)
    else None
  }

  const NoRoutesAvailable := "No routes available"
  const UnnamedRoute := "Unnamed Route"

  /** One list: the placeholder line, or its routes in the order given. */
  datatype Group = Empty | Shown(routes: seq<Route>)

  datatype Groups = Groups(subway: Group, lightRail: Group, rail: Group, bus: Group)

  function GroupOf(g: Groups, c: Category): Group {
    match c
    case Subway => g.subway
    case LightRail => g.lightRail
    case Rail => g.rail
    case Bus => g.bus
  }

  /** The routes a list shows (none for the placeholder). */
  function Members(g: Group): seq<Route> {
    if g.Shown? then g.routes else []
  }

  /** `route.route_type === t`. */
  function OfType(t: int): Route -> bool {
    (r: Route) => r.route_type == t
  }

  /** `displayRouteGroup`: a missing or empty list gets the placeholder. */
  function DisplayRouteGroup(routes: seq<Route>): (g: Group)
    ensures g == Empty <==> routes == []
    ensures Members(g) == routes
  {
    if routes == [] then Empty else Shown(routes)
  }

  /** `displayRoutes`: the four lists for a `/routes` response. */
  function DisplayRoutes(routes: JsArray<Route>): (g: Groups)
    // Not an array, or empty: every list shows the placeholder.
    ensures routes.NotArray? || routes.elems == [] ==> g == Groups(Empty, Empty, Empty, Empty)
    // A list without routes of its type shows the placeholder.
    ensures forall c :: GroupOf(g, c).Shown? ==> Members(GroupOf(g, c)) != []
  {
    if routes.NotArray? || routes.elems == [] then Groups(Empty, Empty, Empty, Empty)
    else
      var rs := routes.elems;
      Groups(DisplayRouteGroup(Filter(rs, OfType(1))), DisplayRouteGroup(Filter(rs, OfType(0))),
             DisplayRouteGroup(Filter(rs, OfType(2))), DisplayRouteGroup(Filter(rs, OfType(3))))
  }

  /** A list shows a route exactly when the route's type is that list's. */
  lemma GroupMembers(routes: JsArray<Route>, r: Route, c: Category)
    ensures r in Members(GroupOf(DisplayRoutes(routes), c)) <==>
      routes.Array? && r in routes.elems && CategoryOf(r.route_type) == Some(c)
  {
    if routes.Array? && routes.elems != [] {
      assert Members(GroupOf(DisplayRoutes(routes), c)) == Filter(routes.elems, OfType(TypeCode(c)));
    }
  }

  /** Each list keeps the response's order. */
  lemma GroupsKeepOrder(routes: seq<Route>, c: Category)
    requires routes != []
    ensures SubsequenceOf(routes, Members(GroupOf(DisplayRoutes(Array(routes)), c)), OfType(TypeCode(c)))
  {
    FilterSelects(routes, OfType(TypeCode(c)));
  }

  /** A route of type 0 to 3 is in exactly one list; any other in none. */
  lemma ExactlyOneGroup(routes: seq<Route>, r: Route)
    requires r in routes
    ensures CategoryOf(r.route_type).Some? ==>
      forall c :: r in Members(GroupOf(DisplayRoutes(Array(routes)), c)) <==> c == CategoryOf(r.route_type).value
    ensures CategoryOf(r.route_type).None? ==>
      forall c :: r !in Members(GroupOf(DisplayRoutes(Array(routes)), c))
  {
    forall c ensures r in Members(GroupOf(DisplayRoutes(Array(routes)), c)) <==> CategoryOf(r.route_type) == Some(c) {
      GroupMembers(Array(routes), r, c);
    }
  }

  /** `getRouteTypeName`: a lookup in the table of the four codes, with
      `'Unknown'` for any other. */
  function RouteTypeName(routeType: int): (name: string)
    ensures name == "Unknown" <==> CategoryOf(routeType).None?
    ensures CategoryOf(routeType) == Some(Subway) ==> name == "Subway"
    ensures CategoryOf(routeType) == Some(LightRail) ==> name == "Light Rail"
    ensures CategoryOf(routeType) == Some(Rail) ==> name == "Rail"
    ensures CategoryOf(routeType) == Some(Bus) ==> name == "Bus"
  {
    var types := map[0 := "Light Rail", 1 := "Subway", 2 := "Rail", 3 := "Bus"];
    if routeType in types then types[routeType] else "Unknown"
  }

  /** A route is named by its type exactly when it is listed somewhere. */
  lemma NamedIffListed(routes: seq<Route>, r: Route)
    requires r in routes
    ensures RouteTypeName(r.route_type) != "Unknown" <==>
      exists c :: r in Members(GroupOf(DisplayRoutes(Array(routes)), c))
  {
    forall c ensures r in Members(GroupOf(DisplayRoutes(Array(routes)), c)) <==> CategoryOf(r.route_type) == Some(c) {
      GroupMembers(Array(routes), r, c);
    }
    if CategoryOf(r.route_type).Some? {
      assert r in Members(GroupOf(DisplayRoutes(Array(routes)), CategoryOf(r.route_type).value));
    }
  }

  /** The label of a listed route: `long_name || short_name || 'Unnamed Route'`. */
  function RouteLabel(r: Route): (shown: string)
    ensures shown != ""
    ensures r.long_name != "" ==> shown == r.long_name
    ensures r.long_name == "" && r.short_name != "" ==> shown == r.short_name
    ensures r.long_name == "" && r.short_name == "" ==> shown == UnnamedRoute
  {
    if r.long_name != "" then r.long_name
    else if r.short_name != "" then r.short_name
    else UnnamedRoute
  }

  /** The search test for an already lowered, non-empty term: a name
      matches when it is non-empty and its lowered form contains the term. */
  function MatchesTerm(term: string): Route -> bool {
    (r: Route) =>
      (r.long_name != "" && Includes(Lower(r.long_name), term))
      || (r.short_name != "" && Includes(Lower(r.short_name), term))
  }

  /** The routes `filterRoutes` hands to `displayRoutes` for the text
      `input` of the search box (lowered, not trimmed). */
  function FilterRoutes(allRoutes: seq<Route>, input: string): (shown: seq<Route>)
    ensures Lower(input) == "" ==> shown == allRoutes
    ensures |shown| <= |allRoutes|
    ensures forall r :: r in shown ==> r in allRoutes
  {
    var term := Lower(input);
    if term == "" then allRoutes else Filter(allRoutes, MatchesTerm(term))
  }

  /** A non-empty search shows a route exactly when one of its lowered
      names contains the lowered search text; an empty name never does. */
  lemma FilterRoutesMembers(allRoutes: seq<Route>, input: string, r: Route)
    requires Lower(input) != ""
    ensures r in FilterRoutes(allRoutes, input) <==>
      r in allRoutes
      && (Includes(Lower(r.long_name), Lower(input)) || Includes(Lower(r.short_name), Lower(input)))
  {
    NameMatches(r.long_name, Lower(input));
    NameMatches(r.short_name, Lower(input));
  }

  lemma NameMatches(name: string, term: string)
    requires term != ""
    ensures (name != "" && Includes(Lower(name), term)) <==> Includes(Lower(name), term)
  {
    if name == "" {
      assert Lower(name) == "";
      assert forall i :: !OccursAt(Lower(name), term, i);
    }
  }

  /** A non-empty search keeps the matching routes in their order. */
  lemma FilterKeepsOrder(allRoutes: seq<Route>, input: string)
    requires Lower(input) != ""
    ensures SubsequenceOf(allRoutes, FilterRoutes(allRoutes, input), MatchesTerm(Lower(input)))
  {
    FilterSelects(allRoutes, MatchesTerm(Lower(input)));
  }

  /** Searching is insensitive to the case of the search text. */
  lemma {:induction false} SearchIgnoresCase(allRoutes: seq<Route>, input: string)
    ensures FilterRoutes(allRoutes, Upper(input)) == FilterRoutes(allRoutes, input)
    ensures FilterRoutes(allRoutes, Lower(input)) == FilterRoutes(allRoutes, input)
  {
    LowerOfUpper(input);
    LowerIdempotent(input);
  }

  /** The lists shown after a search. */
  function SearchView(allRoutes: seq<Route>, input: string): (g: Groups)
    ensures Lower(input) == "" ==> g == DisplayRoutes(Array(allRoutes))
  {
    DisplayRoutes(Array(FilterRoutes(allRoutes, input)))
  }

  /** After a search, a list shows a route exactly when the route matches
      and has that list's type. */
  lemma SearchViewMembers(allRoutes: seq<Route>, input: string, r: Route, c: Category)
    ensures r in Members(GroupOf(SearchView(allRoutes, input), c)) <==>
      r in FilterRoutes(allRoutes, input) && CategoryOf(r.route_type) == Some(c)
  {
    GroupMembers(Array(FilterRoutes(allRoutes, input)), r, c);
  }
}

=== FILE: connectivity.dfy ===
/** `GetStopConnectivity`: which routes take a rider from one stop to
    another. After validating the two query parameters and consulting the
    cache, the handler checks that both stops exist and runs one grouped SQL
    query over `trips` joined twice with `stop_times`. */
module Connectivity {
  import opened Wrappers
  import opened Text
  import opened Http
  import opened CacheKeys
  import opened Parser

  /** One element of `connecting_routes`. */
  datatype ConnectivityEntry = ConnectivityEntry(
    route_id: string,
    from_stop_id: string,
    to_stop_id: string,
    is_connected: bool)

  /** The JSON body: an error, or the list wrapped under `connecting_routes`. */
  datatype ConnectivityBody =
    | ErrorBody(error: string)
    | ConnectingRoutes(connecting_routes: seq<ConnectivityEntry>)

  datatype ConnectivityReply = ConnectivityReply(
    status: int,
    body: ConnectivityBody,
    cacheWrite: CacheWrite<seq<ConnectivityEntry>>)

  /** The three tables the handler reads. */
  datatype Db = Db(stops: seq<StopRecord>, trips: seq<TripRecord>, stop_times: seq<StopTimeRecord>)

  /** Errors the database driver may report for the two existence queries
      and the main query (connection loss and the like). */
  datatype DbFaults = DbFaults(fromExists: Option<string>, toExists: Option<string>, query: Option<string>)

  const MissingParams := "Both from_stop and to_stop parameters are required"
  const FromNotFound := "From stop not found"
  const ToNotFound := "To stop not found"

  /** Time to live of a cached answer: six hours, in seconds. */
  const ConnectivityTtl := 6 * 60 * 60

  // ---------------------------------------------------------------------------
  // What the query means
  // ---------------------------------------------------------------------------

  /** Trip `tripId` has a `stop_times` row at `stop` (with any sequence,
      NULL included). */
  predicate Visits(sts: seq<StopTimeRecord>, tripId: string, stop: string) {
    exists j :: 0 <= j < |sts| && sts[j].trip_id == tripId && sts[j].stop_id == stop
  }

  /** The non-NULL `stop_sequence` values trip `tripId` has at `stop`. */
  ghost function TripSequences(sts: seq<StopTimeRecord>, tripId: string, stop: string): set<int> {
    set st | st in sts && st.trip_id == tripId && st.stop_id == stop && st.stop_sequence.Some?
      :: st.stop_sequence.value
  }

  /** The non-NULL sequences at `stop` over all trips of route `r` that also
      visit `other`: the values the `MIN` for `stop` ranges over in the
      group of `r`. */
  ghost function RouteSequences(trips: seq<TripRecord>, sts: seq<StopTimeRecord>,
                                r: string, stop: string, other: string): set<int> {
    set t, x | t in trips && t.route_id == r && Visits(sts, t.trip_id, other)
                 && x in TripSequences(sts, t.trip_id, stop) :: x
  }

  /** Route `r` connects `from` to `to`: some from-stop sequence is below
      every to-stop sequence, both taken over the route's trips that visit
      both stops, and there is at least one to-stop sequence. This is
      "smallest from-sequence < smallest to-sequence" without naming a
      minimum; the two minima may come from different trips. */
  ghost predicate Connects(trips: seq<TripRecord>, sts: seq<StopTimeRecord>, from: string, to: string, r: string) {
    var fromSeqs := RouteSequences(trips, sts, r, from, to);
    var toSeqs := RouteSequences(trips, sts, r, to, from);
    toSeqs != {} && exists a :: a in fromSeqs && forall b :: b in toSeqs ==> a < b
  }

  /** `m` is the least element of `s`. */
  ghost predicate IsMin(m: int, s: set<int>) {
    m in s && forall x :: x in s ==> m <= x
  }

  /** Asking for connections from a stop to itself never yields a route:
      the comparison is strict and both sides range over the same values. */
  lemma SameStopNeverConnects(trips: seq<TripRecord>, sts: seq<StopTimeRecord>, s: string, r: string)
    ensures !Connects(trips, sts, s, s, r)
  {
  }

  // ---------------------------------------------------------------------------
  // Computing the query
  // ---------------------------------------------------------------------------

  /** `MIN(stop_sequence)` over one trip's rows at one stop, NULLs ignored. */
  function TripMin(sts: seq<StopTimeRecord>, tripId: string, stop: string): (m: Option<int>)
    ensures m.None? <==> TripSequences(sts, tripId, stop) == {}
    ensures m.Some? ==> IsMin(m.value, TripSequences(sts, tripId, stop))
  {
    if |sts| == 0 then None
    else
      var init := sts[..|sts| - 1];
      var last := sts[|sts| - 1];
      assert sts == init + [last];
      var rest := TripMin(init, tripId, stop);
      var here := last.trip_id == tripId && last.stop_id == stop && last.stop_sequence.Some?;
      assert TripSequences(sts, tripId, stop)
          == TripSequences(init, tripId, stop) + (if here then {last.stop_sequence.value} else {});
      if !here then rest
      else if rest.None? || last.stop_sequence.value < rest.value then last.stop_sequence
      else rest
  }

  /** Lowers the running minimum stored for `r` to `m`, treating an absent
      entry as NULL. */
  function MinInto(mins: map<string, int>, r: string, m: Option<int>): (out: map<string, int>)
    ensures out.Keys == mins.Keys + (if m.Some? then {r} else {})
    ensures forall k :: k in mins && k != r ==> out[k] == mins[k]
    ensures r in out ==> out[r] == (if r !in mins then m.value else if m.Some? && m.value < mins[r] then m.value else mins[r])
  {
    if m.None? then mins
    else if r !in mins || m.value < mins[r] then mins[r := m.value]
    else mins
  }

  /** `mins` holds, for every route with any, the least of the route's
      sequences at `stop` over `trips`. */
  ghost predicate MinimaOf(mins: map<string, int>, trips: seq<TripRecord>, sts: seq<StopTimeRecord>,
                           stop: string, other: string) {
    forall r ::
      && (r in mins <==> RouteSequences(trips, sts, r, stop, other) != {})
      && (r in mins ==> IsMin(mins[r], RouteSequences(trips, sts, r, stop, other)))
  }

  /** The running minima after one more trip of the join. */
  function AddTrip(mins: map<string, int>, t: TripRecord, sts: seq<StopTimeRecord>,
                   stop: string, other: string): map<string, int> {
    if Visits(sts, t.trip_id, stop) && Visits(sts, t.trip_id, other)
    then MinInto(mins, t.route_id, TripMin(sts, t.trip_id, stop))
    else mins
  }

  /** Adding one more trip to the group adds that trip's sequences, when
      the trip belongs to the route and visits both stops. */
  lemma RouteSequencesStep(trips: seq<TripRecord>, sts: seq<StopTimeRecord>, i: nat,
                           r: string, stop: string, other: string)
    requires i < |trips|
    ensures var t := trips[i];
      RouteSequences(trips[..i + 1], sts, r, stop, other)
        == RouteSequences(trips[..i], sts, r, stop, other)
           + (if t.route_id == r && Visits(sts, t.trip_id, other) then TripSequences(sts, t.trip_id, stop) else {})
  {
    var t := trips[i];
    var before := RouteSequences(trips[..i], sts, r, stop, other);
    var after := RouteSequences(trips[..i + 1], sts, r, stop, other);
    var added := if t.route_id == r && Visits(sts, t.trip_id, other) then TripSequences(sts, t.trip_id, stop) else {};
    assert trips[..i + 1] == trips[..i] + [t];
    forall x | x in after ensures x in before + added {
      var t' :| t' in trips[..i + 1] && t'.route_id == r && Visits(sts, t'.trip_id, other)
                && x in TripSequences(sts, t'.trip_id, stop);
      if t' in trips[..i] {
        assert x in before;
      }
    }
    forall x | x in before + added ensures x in after {
      if x in added {
        assert t in trips[..i + 1];
      } else {
        var t' :| t' in trips[..i] && t'.route_id == r && Visits(sts, t'.trip_id, other)
                  && x in TripSequences(sts, t'.trip_id, stop);
        assert t' in trips[..i + 1];
      }
    }
  }

  /** One step of the join keeps the running minima exact. */
  lemma AddTripKeepsMinima(mins: map<string, int>, trips: seq<TripRecord>, sts: seq<StopTimeRecord>, i: nat,
                           stop: string, other: string)
    requires i < |trips|
    requires MinimaOf(mins, trips[..i], sts, stop, other)
    ensures MinimaOf(AddTrip(mins, trips[i], sts, stop, other), trips[..i + 1], sts, stop, other)
  {
    var t := trips[i];
    var next := AddTrip(mins, t, sts, stop, other);
    forall r
      ensures r in next <==> RouteSequences(trips[..i + 1], sts, r, stop, other) != {}
      ensures r in next ==> IsMin(next[r], RouteSequences(trips[..i + 1], sts, r, stop, other))
    {
      RouteSequencesStep(trips, sts, i, r, stop, other);
      AddTripAt(mins, t, sts, stop, other, r,
                RouteSequences(trips[..i], sts, r, stop, other),
                RouteSequences(trips[..i + 1], sts, r, stop, other));
    }
  }

  /** `AddTrip` keeps the minimum of one route exact. */
  lemma AddTripAt(mins: map<string, int>, t: TripRecord, sts: seq<StopTimeRecord>,
                  stop: string, other: string, r: string, before: set<int>, after: set<int>)
    requires (r in mins <==> before != {}) && (r in mins ==> IsMin(mins[r], before))
    requires after == before + (if t.route_id == r && Visits(sts, t.trip_id, other)
                                then TripSequences(sts, t.trip_id, stop) else {})
    ensures var next := AddTrip(mins, t, sts, stop, other);
      (r in next <==> after != {}) && (r in next ==> IsMin(next[r], after))
  {
    if !Visits(sts, t.trip_id, stop) {
      NoVisitNoSequences(sts, t.trip_id, stop);
    }
  }

  /** A trip without a row at a stop has no sequence there. */
  lemma NoVisitNoSequences(sts: seq<StopTimeRecord>, tripId: string, stop: string)
    requires !Visits(sts, tripId, stop)
    ensures TripSequences(sts, tripId, stop) == {}
  {
    forall st | st in sts
      ensures !(st.trip_id == tripId && st.stop_id == stop)
    {
      var j :| 0 <= j < |sts| && sts[j] == st;
    }
  }

  /** With exact minima for both stops, the HAVING test is the `Connects`
      condition. */
  lemma HavingIsConnects(fromMin: map<string, int>, toMin: map<string, int>,
                         trips: seq<TripRecord>, sts: seq<StopTimeRecord>, from: string, to: string, r: string)
    requires MinimaOf(fromMin, trips, sts, from, to) && MinimaOf(toMin, trips, sts, to, from)
    ensures (r in fromMin && r in toMin && fromMin[r] < toMin[r]) <==> Connects(trips, sts, from, to, r)
  {
    if r in fromMin && r in toMin && fromMin[r] < toMin[r] {
      assert fromMin[r] in RouteSequences(trips, sts, r, from, to);
    }
    if Connects(trips, sts, from, to, r) {
      var a :| a in RouteSequences(trips, sts, r, from, to)
               && forall b :: b in RouteSequences(trips, sts, r, to, from) ==> a < b;
      assert toMin[r] in RouteSequences(trips, sts, r, to, from);
    }
  }

  /** The grouped query: route ids, distinct and in ascending order, whose
      least from-stop sequence is strictly below their least to-stop
      sequence, both over the route's trips that visit both stops. */
  method ConnectingRouteIds(trips: seq<TripRecord>, sts: seq<StopTimeRecord>, from: string, to: string)
    returns (ids: seq<string>)
    ensures StrictlyAscending(ids)
    ensures forall r :: r in ids <==> Connects(trips, sts, from, to, r)
  {
    // The join and GROUP BY: running minima per route, trip by trip.
    var fromMin: map<string, int> := map[];
    var toMin: map<string, int> := map[];
    var i := 0;
    assert trips[..0] == [];
    while i < |trips|
      invariant 0 <= i <= |trips|
      invariant MinimaOf(fromMin, trips[..i], sts, from, to)
      invariant MinimaOf(toMin, trips[..i], sts, to, from)
    {
      AddTripKeepsMinima(fromMin, trips, sts, i, from, to);
      AddTripKeepsMinima(toMin, trips, sts, i, to, from);
      fromMin := AddTrip(fromMin, trips[i], sts, from, to);
      toMin := AddTrip(toMin, trips[i], sts, to, from);
      i := i + 1;
    }
    assert trips[..i] == trips;

    // HAVING and ORDER BY.
    ids := [];
    var pending := fromMin.Keys;
    while pending != {}
      invariant pending <= fromMin.Keys
      invariant StrictlyAscending(ids)
      invariant forall r :: r in ids <==> r in fromMin.Keys - pending && r in toMin && fromMin[r] < toMin[r]
      decreases pending
    {
      var r :| r in pending;
      if r in toMin && fromMin[r] < toMin[r] {
        ids := InsertAscending(ids, r);
      }
      pending := pending - {r};
    }

    forall r ensures r in ids <==> Connects(trips, sts, from, to, r) {
      HavingIsConnects(fromMin, toMin, trips, sts, from, to, r);
    }
  }

  // ---------------------------------------------------------------------------
  // The handler
  // ---------------------------------------------------------------------------

  /** Does `stops` hold a row with this id (`SELECT EXISTS(...)`)? */
  predicate StopExists(stops: seq<StopRecord>, id: string) {
    exists j :: 0 <= j < |stops| && stops[j].stop_id == id
  }

  /** The response entries for a list of route ids. */
  function Entries(ids: seq<string>, from: string, to: string): (es: seq<ConnectivityEntry>)
    ensures |es| == |ids|
    ensures forall j :: 0 <= j < |es| ==> es[j] == ConnectivityEntry(ids[j], from, to, true)
  {
    if |ids| == 0 then [] else [ConnectivityEntry(ids[0], from, to, true)] + Entries(ids[1..], from, to)
  }

  /** `GetStopConnectivity` with the query parameters `from` and `to`, the
      cache lookup `cache`, the tables `db` and the driver errors `faults`. */
  method GetStopConnectivity(from: string, to: string, cache: string -> Option<seq<ConnectivityEntry>>,
                             db: Db, faults: DbFaults)
    returns (reply: ConnectivityReply)
    // Parameter validation comes before any cache or database access.
    ensures from == "" || to == "" ==>
      reply == ConnectivityReply(StatusBadRequest, ErrorBody(MissingParams), NoWrite)
    // A cache hit is answered as stored, before the existence checks.
    ensures from != "" && to != "" && cache(ConnectivityKey(from, to)).Some? ==>
      reply == ConnectivityReply(StatusOK, ConnectingRoutes(cache(ConnectivityKey(from, to)).value), NoWrite)
    // The from-stop is reported missing first, even when both are missing.
    ensures from != "" && to != "" && cache(ConnectivityKey(from, to)).None?
            && faults.fromExists.None? && faults.toExists.None? && !StopExists(db.stops, from) ==>
      reply == ConnectivityReply(StatusNotFound, ErrorBody(FromNotFound), NoWrite)
    ensures from != "" && to != "" && cache(ConnectivityKey(from, to)).None?
            && faults.fromExists.None? && faults.toExists.None?
            && StopExists(db.stops, from) && !StopExists(db.stops, to) ==>
      reply == ConnectivityReply(StatusNotFound, ErrorBody(ToNotFound), NoWrite)
    // A driver error is a 500 with its text, and nothing is cached: the
    // from-stop lookup is checked first, then the to-stop lookup, and the
    // main query only once both stops are known to exist.
    ensures from != "" && to != "" && cache(ConnectivityKey(from, to)).None? && faults.fromExists.Some? ==>
      reply == ConnectivityReply(StatusInternalServerError, ErrorBody(faults.fromExists.value), NoWrite)
    ensures from != "" && to != "" && cache(ConnectivityKey(from, to)).None?
            && faults.fromExists.None? && faults.toExists.Some? ==>
      reply == ConnectivityReply(StatusInternalServerError, ErrorBody(faults.toExists.value), NoWrite)
    ensures from != "" && to != "" && cache(ConnectivityKey(from, to)).None?
            && faults.fromExists.None? && faults.toExists.None?
            && StopExists(db.stops, from) && StopExists(db.stops, to) && faults.query.Some? ==>
      reply == ConnectivityReply(StatusInternalServerError, ErrorBody(faults.query.value), NoWrite)
    ensures reply.status == StatusInternalServerError ==>
      && reply.body.ErrorBody?
      && reply.cacheWrite.NoWrite?
      && Some(reply.body.error) in [faults.fromExists, faults.toExists, faults.query]
    // A computed answer: the connecting routes, ascending and distinct,
    // each echoing both stops, and the same list written to the cache.
    ensures reply.status == StatusOK && cache(ConnectivityKey(from, to)).None? ==>
      && reply.body.ConnectingRoutes?
      && var es := reply.body.connecting_routes;
      && reply.cacheWrite == Write(ConnectivityKey(from, to), es, ConnectivityTtl)
      && (forall j :: 0 <= j < |es| ==>
            es[j].from_stop_id == from && es[j].to_stop_id == to && es[j].is_connected)
      && (forall j, k :: 0 <= j < k < |es| ==> LexLess(es[j].route_id, es[k].route_id))
      && (forall r :: (exists j :: 0 <= j < |es| && es[j].route_id == r)
                        <==> Connects(db.trips, db.stop_times, from, to, r))
    // The request succeeds exactly on a cache hit or on a fault-free lookup
    // of two existing stops.
    ensures reply.status == StatusOK <==>
      from != "" && to != ""
      && (|| cache(ConnectivityKey(from, to)).Some?
          || (&& faults == DbFaults(None, None, None)
              && StopExists(db.stops, from) && StopExists(db.stops, to)))
    ensures reply.status in {StatusOK, StatusBadRequest, StatusNotFound, StatusInternalServerError}
  {
    if from == "" || to == "" {
      return ConnectivityReply(StatusBadRequest, ErrorBody(MissingParams), NoWrite);
    }
    var key := ConnectivityKey(from, to);
    match cache(key) {
      case Some(routes) =>
        return ConnectivityReply(StatusOK, ConnectingRoutes(routes), NoWrite);
      case None =>
    }
    if faults.fromExists.Some? {
      return ConnectivityReply(StatusInternalServerError, ErrorBody(faults.fromExists.value), NoWrite);
    }
    var fromExists := StopExists(db.stops, from);
    if faults.toExists.Some? {
      return ConnectivityReply(StatusInternalServerError, ErrorBody(faults.toExists.value), NoWrite);
    }
    var toExists := StopExists(db.stops, to);
    if !fromExists {
      return ConnectivityReply(StatusNotFound, ErrorBody(FromNotFound), NoWrite);
    }
    if !toExists {
      return ConnectivityReply(StatusNotFound, ErrorBody(ToNotFound), NoWrite);
    }
    if faults.query.Some? {
      return ConnectivityReply(StatusInternalServerError, ErrorBody(faults.query.value), NoWrite);
    }
    var ids := ConnectingRouteIds(db.trips, db.stop_times, from, to);
    var routes := Entries(ids, from, to);
    assert forall r :: (exists j :: 0 <= j < |routes| && routes[j].route_id == r) <==> r in ids by {
      forall r ensures (exists j :: 0 <= j < |routes| && routes[j].route_id == r) <==> r in ids {
        if r in ids {
          var j :| 0 <= j < |ids| && ids[j] == r;
          assert routes[j].route_id == r;
        }
      }
    }
    return ConnectivityReply(StatusOK, ConnectingRoutes(routes), Write(key, routes, ConnectivityTtl));
  }
}

=== FILE: favorites_api.dfy ===
/** The three Gin handlers of handlers/favorites.go in front of the
    favorites table: they parse the user id, validate the item type, call the
    store and turn its outcome into a status code and a JSON body. */
module FavoritesApi {
  import opened Wrappers
  import opened Text
  import opened Http
  import opened Parser
  import opened FavoritesStore

  const TypeMustBeRouteOrStop := "Type must be 'route' or 'stop'"
  const FavoriteDeleted := "Favorite deleted successfully"

  /** The JSON request body of `AddFavorite`; a missing field decodes as "". */
  datatype FavoriteRequest = FavoriteRequest(item_id: string, item_type: string)

  datatype ApiBody =
    | ErrorBody(error: string)
    | FavoriteBody(favorite: Favorite)
    | FavoritesBody(favorites: JsonList<Favorite>)
    | MessageBody(message: string)

  datatype ApiReply = ApiReply(status: int, body: ApiBody)

  /** A reply together with the favorites table after the request. */
  datatype Handled = Handled(reply: ApiReply, store: Store)

  predicate KnownType(t: string) {
    t == "route" || t == "stop"
  }

  /** `strconv.Quote` for strings without quotes, backslashes or
      non-printable characters. */
  function Quote(s: string): string {
    "\"" + s + "\""
  }

  /** `strconv.Atoi(s)` on a 64-bit platform: it accepts exactly the
      decimal text of a signed 64-bit integer (an optional sign, then one or
      more digits) and yields its value. Decimal text out of range is a
      range error; the error reads `strconv.Atoi: parsing "<s>": <reason>`. */
  function Atoi(s: string): (r: Result<int, string>)
    ensures r.Ok? <==> IsDecimalInt64(s)
    ensures r.Ok? ==> r.value == SignedDigits(s)
    ensures DecimalShape(s) && !IsDecimalInt64(s) ==>
      r == Err("strconv.Atoi: parsing " + Quote(s) + ": value out of range")
    ensures r.Err? ==>
      || r.error == "strconv.Atoi: parsing " + Quote(s) + ": invalid syntax"
      || r.error == "strconv.Atoi: parsing " + Quote(s) + ": value out of range"
    ensures s == "" ==> r == Err("strconv.Atoi: parsing " + Quote(s) + ": invalid syntax")
  {
    ParseIntMeaning(s);
    match ParseInt64(s)
    case Num(n) => Ok(n)
    case SyntaxError => Err("strconv.Atoi: parsing " + Quote(s) + ": invalid syntax")
    case RangeError => Err("strconv.Atoi: parsing " + Quote(s) + ": value out of range")
  }

  /** `POST /users/:id/favorites`. `body` is what `ShouldBindJSON` produced
      (or its error), `fault` the store's error, if any. */
  function AddFavoriteHandler(st: Store, idParam: string, body: Result<FavoriteRequest, string>, fault: Option<string>)
    : (h: Handled)
    // Checks run in order: user id, body, type, store.
    ensures !IsDecimalInt64(idParam) ==>
      h == Handled(ApiReply(StatusBadRequest, ErrorBody(Atoi(idParam).error)), st)
    ensures IsDecimalInt64(idParam) && body.Err? ==>
      h == Handled(ApiReply(StatusBadRequest, ErrorBody(body.error)), st)
    ensures IsDecimalInt64(idParam) && body.Ok? && !KnownType(body.value.item_type) ==>
      h == Handled(ApiReply(StatusBadRequest, ErrorBody(TypeMustBeRouteOrStop)), st)
    ensures IsDecimalInt64(idParam) && body.Ok? && KnownType(body.value.item_type) && fault.Some? ==>
      h == Handled(ApiReply(StatusInternalServerError, ErrorBody(fault.value)), st)
    // Success: exactly one new row, for the parsed user, returned as stored.
    ensures h.reply.status == StatusOK <==>
      IsDecimalInt64(idParam) && body.Ok? && KnownType(body.value.item_type) && fault.None?
    ensures h.reply.status == StatusOK ==>
      && h.reply.body.FavoriteBody?
      && |h.store.rows| == |st.rows| + 1
      && h.store.rows[..|st.rows|] == st.rows
      && h.store.rows[|st.rows|] ==
           FavoriteRow(h.reply.body.favorite.id, SignedDigits(idParam), body.value.item_id, body.value.item_type)
      && h.reply.body.favorite == Favorite(h.store.rows[|st.rows|].id, body.value.item_type, body.value.item_id, "")
      && (Valid(st) ==> forall k :: 0 <= k < |st.rows| ==> st.rows[k].id != h.reply.body.favorite.id)
    ensures h.reply.status != StatusOK ==> h.store == st
  {
    match Atoi(idParam)
    case Err(e) => Handled(ApiReply(StatusBadRequest, ErrorBody(e)), st)
    case Ok(userId) =>
      match body
      case Err(e) => Handled(ApiReply(StatusBadRequest, ErrorBody(e)), st)
      case Ok(req) =>
        if !KnownType(req.item_type) then Handled(ApiReply(StatusBadRequest, ErrorBody(TypeMustBeRouteOrStop)), st)
        else match AddFavorite(st, userId, req.item_id, req.item_type, fault)
          case Err(e) => Handled(ApiReply(StatusInternalServerError, ErrorBody(e)), st)
          case Ok(added) => Handled(ApiReply(StatusOK, FavoriteBody(added.favorite)), added.store)
  }

  /** `GET /users/:id/favorites`. `fault` is the store's error, if any. */
  function GetFavoritesHandler(st: Store, routes: seq<RouteRecord>, idParam: string, fault: Option<string>)
    : (reply: ApiReply)
    requires KeysUnique(routes, RouteId)
    ensures !IsDecimalInt64(idParam) ==>
      reply == ApiReply(StatusBadRequest, ErrorBody(Atoi(idParam).error))
    ensures IsDecimalInt64(idParam) && fault.Some? ==>
      reply == ApiReply(StatusInternalServerError, ErrorBody(fault.value))
    ensures reply.status == StatusOK <==> IsDecimalInt64(idParam) && fault.None?
    ensures reply.status == StatusOK ==>
      reply.body == FavoritesBody(GetFavorites(st, routes, SignedDigits(idParam), None).value)
  {
    match Atoi(idParam)
    case Err(e) => ApiReply(StatusBadRequest, ErrorBody(e))
    case Ok(userId) =>
      match GetFavorites(st, routes, userId, fault)
      case Err(e) => ApiReply(StatusInternalServerError, ErrorBody(e))
      case Ok(favorites) => ApiReply(StatusOK, FavoritesBody(favorites))
  }

  /** `DELETE /users/:id/favorites/:type/:item_id`. The type is checked
      before the store is touched; `fault` is the store's error, if any. */
  function DeleteFavoriteHandler(st: Store, idParam: string, typeParam: string, itemParam: string, fault: Option<string>)
    : (h: Handled)
    ensures !IsDecimalInt64(idParam) ==>
      h == Handled(ApiReply(StatusBadRequest, ErrorBody(Atoi(idParam).error)), st)
    ensures IsDecimalInt64(idParam) && !KnownType(typeParam) ==>
      h == Handled(ApiReply(StatusBadRequest, ErrorBody(TypeMustBeRouteOrStop)), st)
    ensures IsDecimalInt64(idParam) && KnownType(typeParam) && fault.Some? ==>
      h == Handled(ApiReply(StatusInternalServerError, ErrorBody(fault.value)), st)
    ensures h.reply.status == StatusOK <==> IsDecimalInt64(idParam) && KnownType(typeParam) && fault.None?
    ensures h.reply.status == StatusOK ==>
      && h.reply.body == MessageBody(FavoriteDeleted)
      && h.store.nextId == st.nextId
      && (forall row :: row in h.store.rows <==>
            row in st.rows
            && !(row.user_id == SignedDigits(idParam) && row.item_id == itemParam && row.item_type == typeParam))
    ensures h.reply.status != StatusOK ==> h.store == st
  {
    match Atoi(idParam)
    case Err(e) => Handled(ApiReply(StatusBadRequest, ErrorBody(e)), st)
    case Ok(userId) =>
      if !KnownType(typeParam) then Handled(ApiReply(StatusBadRequest, ErrorBody(TypeMustBeRouteOrStop)), st)
      else match DeleteFavorite(st, userId, itemParam, typeParam, fault)
        case Err(e) => Handled(ApiReply(StatusInternalServerError, ErrorBody(e)), st)
        case Ok(st2) => Handled(ApiReply(StatusOK, MessageBody(FavoriteDeleted)), st2)
  }

  /** A user id written in decimal reaches the store as that same user: a
      favorite added through the API for `IntToString(user)` is listed for
      the same path, exactly once. */
  lemma AddThenGetThroughApi(st: Store, routes: seq<RouteRecord>, user: int, req: FavoriteRequest)
    requires Valid(st) && KeysUnique(routes, RouteId)
    requires MinInt64 <= user <= MaxInt64 && KnownType(req.item_type)
    ensures
      var h := AddFavoriteHandler(st, IntToString(user), Ok(req), None);
      var g := GetFavoritesHandler(h.store, routes, IntToString(user), None);
      && h.reply.status == StatusOK
      && h.store.rows[|st.rows|].user_id == user
      && g.status == StatusOK && g.body.favorites.List?
      && (exists k :: 0 <= k < |g.body.favorites.elems| && g.body.favorites.elems[k].id == h.reply.body.favorite.id)
  {
    ParseIntRoundTrip(user);
    ParseIntMeaning(IntToString(user));
    AddThenListed(st, routes, user, req.item_id, req.item_type);
  }

  /** A favorite deleted through the API is no longer listed for that user. */
  lemma DeleteThenGetThroughApi(st: Store, routes: seq<RouteRecord>, user: int, itemType: string, itemId: string)
    requires KeysUnique(routes, RouteId)
    requires MinInt64 <= user <= MaxInt64 && KnownType(itemType)
    ensures
      var h := DeleteFavoriteHandler(st, IntToString(user), itemType, itemId, None);
      var g := GetFavoritesHandler(h.store, routes, IntToString(user), None);
      && h.reply == ApiReply(StatusOK, MessageBody(FavoriteDeleted))
      && g.status == StatusOK
      && (g.body.favorites.List? ==>
            forall k :: 0 <= k < |g.body.favorites.elems| ==>
              !(g.body.favorites.elems[k].item_id == itemId && g.body.favorites.elems[k].item_type == itemType))
  {
    ParseIntRoundTrip(user);
    ParseIntMeaning(IntToString(user));
    DeleteThenAbsent(st, routes, user, itemId, itemType);
  }
}

=== FILE: favorites_store.dfy ===
/** The `favorites` table and the three queries models/favorites.go runs on
    it: insert one row, list a user's rows joined with `routes`, delete the
    rows matching user, item and type. */
module FavoritesStore {
  import opened Wrappers
  import opened Http
  import opened Seqs
  import opened Parser

  /** One row of `favorites`; `id` is its SERIAL primary key. */
  datatype FavoriteRow = FavoriteRow(id: int, user_id: int, item_id: string, item_type: string)

  /** The table's rows in storage order, and the next value of its id
      sequence. */
  datatype Store = Store(rows: seq<FavoriteRow>, nextId: int)

  predicate RowIdsDistinct(rows: seq<FavoriteRow>) {
    forall j, k :: 0 <= j < k < |rows| ==> rows[j].id != rows[k].id
  }

  /** What the primary key and the id sequence guarantee: ids are distinct,
      and every id was handed out before `nextId`. */
  predicate Valid(st: Store) {
    && (forall k :: 0 <= k < |st.rows| ==> st.rows[k].id < st.nextId)
    && RowIdsDistinct(st.rows)
  }

  /** The JSON `Favorite`. An empty `item_name` is omitted from the JSON
      (`omitempty`), so "" stands for an absent name. */
  datatype Favorite = Favorite(id: int, item_type: string, item_id: string, item_name: string)

  datatype Added = Added(store: Store, favorite: Favorite)

  // ---------------------------------------------------------------------------
  // AddFavorite
  // ---------------------------------------------------------------------------

  /** `INSERT ... RETURNING id, item_id, type`. `fault` is the error the
      driver reports, if any (a violated constraint, a lost connection); the
      table is then unchanged. */
  function AddFavorite(st: Store, userId: int, itemId: string, itemType: string, fault: Option<string>)
    : (r: Result<Added, string>)
    ensures fault.Some? ==> r == Err(fault.value)
    ensures fault.None? ==> r.Ok?
    ensures r.Ok? ==> |r.value.store.rows| == |st.rows| + 1
    ensures r.Ok? ==>
      && var added := r.value.store.rows[|st.rows|];
      && r.value.store.rows[..|st.rows|] == st.rows
      && added.user_id == userId && added.item_id == itemId && added.item_type == itemType
      && r.value.favorite == Favorite(added.id, itemType, itemId, "")
      && added.id < r.value.store.nextId
      && (Valid(st) ==> forall k :: 0 <= k < |st.rows| ==> st.rows[k].id != added.id)
  {
    if fault.Some? then Err(fault.value)
    else
      var row := FavoriteRow(st.nextId, userId, itemId, itemType);
      assert (st.rows + [row])[..|st.rows|] == st.rows;
      Ok(Added(Store(st.rows + [row], st.nextId + 1), Favorite(row.id, itemType, itemId, "")))
  }

  lemma AddKeepsValid(st: Store, userId: int, itemId: string, itemType: string)
    requires Valid(st)
    ensures Valid(AddFavorite(st, userId, itemId, itemType, None).value.store)
  {
  }

  // ---------------------------------------------------------------------------
  // GetFavorites
  // ---------------------------------------------------------------------------

  /** `COALESCE(r.route_long_name, r.route_short_name)` for the route the
      row is joined with: `None` is SQL NULL. Only a `"route"` favorite is
      joined, and `route_id` is the primary key of `routes`, so at most one
      route matches. */
  function ItemName(routes: seq<RouteRecord>, row: FavoriteRow): (name: Option<string>)
    requires KeysUnique(routes, RouteId)
    ensures row.item_type != "route" ==> name.None?
    ensures name.Some? <==>
      exists k :: 0 <= k < |routes| && routes[k].route_id == row.item_id && row.item_type == "route"
                  && (routes[k].route_long_name.Some? || routes[k].route_short_name.Some?)
    ensures forall k :: 0 <= k < |routes| && routes[k].route_id == row.item_id && row.item_type == "route" ==>
      name == if routes[k].route_long_name.Some? then routes[k].route_long_name else routes[k].route_short_name
  {
    if row.item_type != "route" then None
    else match FirstByKey(routes, RouteId, row.item_id)
      case None => None
      case Some(route) =>
        if route.route_long_name.Some? then route.route_long_name else route.route_short_name
  }

  function OfUser(userId: int): FavoriteRow -> bool {
    (row: FavoriteRow) => row.user_id == userId
  }

  /** One result row as `rows.Scan` fills a `Favorite`: a NULL name leaves
      `ItemName` empty. */
  function ViewOf(routes: seq<RouteRecord>): FavoriteRow -> Favorite
    requires KeysUnique(routes, RouteId)
  {
    (row: FavoriteRow) => Favorite(row.id, row.item_type, row.item_id, ItemName(routes, row).GetOr(""))
  }

  predicate IdsDescending(fs: seq<Favorite>) {
    forall j, k :: 0 <= j < k < |fs| ==> fs[j].id >= fs[k].id
  }

  function InsertByIdDesc(f: Favorite, fs: seq<Favorite>): (r: seq<Favorite>)
    requires IdsDescending(fs)
    ensures IdsDescending(r)
    ensures multiset(r) == multiset(fs) + multiset{f}
  {
    if fs == [] then [f]
    else if f.id >= fs[0].id then [f] + fs
    else
      var rest := InsertByIdDesc(f, fs[1..]);
      assert fs == [fs[0]] + fs[1..];
      assert forall k :: 0 <= k < |rest| ==> rest[k].id <= fs[0].id by {
        forall k | 0 <= k < |rest| ensures rest[k].id <= fs[0].id {
          assert rest[k] in multiset(rest);
          if rest[k] != f {
            assert rest[k] in multiset(fs[1..]);
          }
        }
      }
      [fs[0]] + rest
  }

  /** `ORDER BY f.id DESC`. */
  function SortByIdDesc(fs: seq<Favorite>): (r: seq<Favorite>)
    ensures IdsDescending(r)
    ensures multiset(r) == multiset(fs)
  {
    if fs == [] then []
    else
      assert fs == [fs[0]] + fs[1..];
      InsertByIdDesc(fs[0], SortByIdDesc(fs[1..]))
  }

  /** The user's rows, joined and scanned, in storage order. */
  function Listed(st: Store, routes: seq<RouteRecord>, userId: int): seq<Favorite>
    requires KeysUnique(routes, RouteId)
  {
    Map(Filter(st.rows, OfUser(userId)), ViewOf(routes))
  }

  /** `GetFavorites`: the user's favorites, newest id first. A user with no
      rows gets a nil slice, which is JSON `null`. `fault` is the error the
      driver reports from the query, a scan or the row iteration. */
  function GetFavorites(st: Store, routes: seq<RouteRecord>, userId: int, fault: Option<string>)
    : (r: Result<JsonList<Favorite>, string>)
    requires KeysUnique(routes, RouteId)
    ensures fault.Some? ==> r == Err(fault.value)
    ensures fault.None? ==> r.Ok?
    ensures r.Ok? ==>
      (r.value.Null? <==> forall k :: 0 <= k < |st.rows| ==> st.rows[k].user_id != userId)
    ensures r.Ok? && r.value.List? ==>
      && IdsDescending(r.value.elems)
      && multiset(r.value.elems) == multiset(Listed(st, routes, userId))
  {
    if fault.Some? then Err(fault.value)
    else
      var listed := Listed(st, routes, userId);
      var users := Filter(st.rows, OfUser(userId));
      assert users != [] ==> users[0] in users;
      if listed == [] then Ok(Null) else Ok(List(SortByIdDesc(listed)))
  }

  /** The listed favorites are exactly the user's rows, joined. */
  lemma ListedMembers(st: Store, routes: seq<RouteRecord>, userId: int)
    requires KeysUnique(routes, RouteId)
    ensures GetFavorites(st, routes, userId, None).value.List? ==>
      forall f :: f in GetFavorites(st, routes, userId, None).value.elems <==>
        exists k :: 0 <= k < |st.rows| && st.rows[k].user_id == userId && f == ViewOf(routes)(st.rows[k])
  {
    var r := GetFavorites(st, routes, userId, None);
    if r.value.List? {
      var users := Filter(st.rows, OfUser(userId));
      var listed := Listed(st, routes, userId);
      forall f ensures f in r.value.elems <==>
        exists k :: 0 <= k < |st.rows| && st.rows[k].user_id == userId && f == ViewOf(routes)(st.rows[k])
      {
        assert f in r.value.elems <==> f in multiset(listed);
        if f in listed {
          var i :| 0 <= i < |listed| && listed[i] == f;
          assert users[i] in users;
          var k :| 0 <= k < |st.rows| && st.rows[k] == users[i];
        }
        if exists k :: 0 <= k < |st.rows| && st.rows[k].user_id == userId && f == ViewOf(routes)(st.rows[k]) {
          var k :| 0 <= k < |st.rows| && st.rows[k].user_id == userId && f == ViewOf(routes)(st.rows[k]);
          assert st.rows[k] in users;
          var i :| 0 <= i < |users| && users[i] == st.rows[k];
          assert listed[i] == f;
        }
      }
    }
  }

  predicate IdsStrictlyDescending(fs: seq<Favorite>) {
    forall j, k :: 0 <= j < k < |fs| ==> fs[j].id > fs[k].id
  }

  predicate IdsDistinct(fs: seq<Favorite>) {
    forall j, k :: 0 <= j < |fs| && 0 <= k < |fs| && j != k ==> fs[j].id != fs[k].id
  }

  /** No two listed rows share an id. */
  lemma {:induction false} FilterKeepsDistinct(rows: seq<FavoriteRow>, keep: FavoriteRow -> bool)
    requires RowIdsDistinct(rows)
    ensures RowIdsDistinct(Filter(rows, keep))
    decreases |rows|
  {
    if |rows| > 0 {
      var init := rows[..|rows| - 1];
      var last := rows[|rows| - 1];
      FilterKeepsDistinct(init, keep);
      var ys := Filter(init, keep);
      forall y | y in ys ensures y.id != last.id {
        var k :| 0 <= k < |init| && init[k] == y;
      }
    }
  }

  /** A value occurs at most once in a sequence without repeated ids. */
  lemma {:induction false} DistinctCountsOne(fs: seq<Favorite>, x: Favorite)
    requires IdsDistinct(fs)
    ensures multiset(fs)[x] <= 1
    decreases |fs|
  {
    if |fs| > 0 {
      assert fs == [fs[0]] + fs[1..];
      DistinctCountsOne(fs[1..], x);
      if x == fs[0] {
        assert x !in fs[1..];
      }
    }
  }

  /** A permutation of a sequence without repeated ids has none either. */
  lemma PermutationKeepsDistinct(fs: seq<Favorite>, r: seq<Favorite>)
    requires IdsDistinct(fs) && multiset(r) == multiset(fs)
    ensures IdsDistinct(r)
  {
    forall j, k | 0 <= j < |r| && 0 <= k < |r| && j != k ensures r[j].id != r[k].id {
      if r[j] == r[k] {
        var lo, hi := if j < k then j else k, if j < k then k else j;
        assert r == r[..hi] + r[hi..];
        assert r[lo] in r[..hi] && r[hi] in r[hi..];
        DistinctCountsOne(fs, r[j]);
      } else {
        assert r[j] in multiset(fs) && r[k] in multiset(fs);
        var p :| 0 <= p < |fs| && fs[p] == r[j];
        var q :| 0 <= q < |fs| && fs[q] == r[k];
      }
    }
  }

  /** In a valid table a user's favorites come out in strictly descending id
      order, so each favorite is listed once. */
  lemma ListStrictlyDescending(st: Store, routes: seq<RouteRecord>, userId: int)
    requires Valid(st) && KeysUnique(routes, RouteId)
    ensures GetFavorites(st, routes, userId, None).value.List? ==>
      IdsStrictlyDescending(GetFavorites(st, routes, userId, None).value.elems)
  {
    var r := GetFavorites(st, routes, userId, None);
    if r.value.List? {
      var users := Filter(st.rows, OfUser(userId));
      FilterKeepsDistinct(st.rows, OfUser(userId));
      var listed := Listed(st, routes, userId);
      assert IdsDistinct(listed) by {
        forall j, k | 0 <= j < |listed| && 0 <= k < |listed| && j != k ensures listed[j].id != listed[k].id {
          assert listed[j].id == users[j].id && listed[k].id == users[k].id;
        }
      }
      PermutationKeepsDistinct(listed, r.value.elems);
    }
  }

  /** After a successful add, listing the user's favorites shows the new one
      exactly once, with the item and type it was added with. */
  lemma AddThenListed(st: Store, routes: seq<RouteRecord>, userId: int, itemId: string, itemType: string)
    requires Valid(st) && KeysUnique(routes, RouteId)
    ensures
      var added := AddFavorite(st, userId, itemId, itemType, None).value;
      var listed := GetFavorites(added.store, routes, userId, None).value;
      && listed.List?
      && (exists k :: 0 <= k < |listed.elems| && listed.elems[k].id == added.favorite.id
                      && listed.elems[k].item_id == itemId && listed.elems[k].item_type == itemType)
      && (forall j, k ::
            (0 <= j < |listed.elems| && 0 <= k < |listed.elems|
             && listed.elems[j].id == added.favorite.id && listed.elems[k].id == added.favorite.id) ==> j == k)
  {
    var added := AddFavorite(st, userId, itemId, itemType, None).value;
    AddKeepsValid(st, userId, itemId, itemType);
    var rows := added.store.rows;
    var n := |rows| - 1;
    assert rows[n].user_id == userId;
    var listed := GetFavorites(added.store, routes, userId, None).value;
    ListedMembers(added.store, routes, userId);
    var f := ViewOf(routes)(rows[n]);
    assert f in listed.elems;
    ListStrictlyDescending(added.store, routes, userId);
  }

  // ---------------------------------------------------------------------------
  // DeleteFavorite
  // ---------------------------------------------------------------------------

  function Survives(userId: int, itemId: string, itemType: string): FavoriteRow -> bool {
    (row: FavoriteRow) => !(row.user_id == userId && row.item_id == itemId && row.item_type == itemType)
  }

  /** `DELETE ... WHERE user_id = $1 AND item_id = $2 AND type = $3`. The
      number of rows affected is not looked at, so deleting nothing succeeds. */
  function DeleteFavorite(st: Store, userId: int, itemId: string, itemType: string, fault: Option<string>)
    : (r: Result<Store, string>)
    ensures fault.Some? ==> r == Err(fault.value)
    ensures fault.None? ==> r.Ok?
    ensures r.Ok? ==>
      && r.value.nextId == st.nextId
      && (forall row :: row in r.value.rows <==>
            row in st.rows && !(row.user_id == userId && row.item_id == itemId && row.item_type == itemType))
  {
    if fault.Some? then Err(fault.value)
    else Ok(Store(Filter(st.rows, Survives(userId, itemId, itemType)), st.nextId))
  }

  /** The surviving rows keep their order. */
  lemma DeleteKeepsOrder(st: Store, userId: int, itemId: string, itemType: string)
    ensures SubsequenceOf(st.rows, DeleteFavorite(st, userId, itemId, itemType, None).value.rows,
                          Survives(userId, itemId, itemType))
  {
    FilterSelects(st.rows, Survives(userId, itemId, itemType));
  }

  lemma DeleteKeepsValid(st: Store, userId: int, itemId: string, itemType: string)
    requires Valid(st)
    ensures Valid(DeleteFavorite(st, userId, itemId, itemType, None).value)
  {
    FilterKeepsDistinct(st.rows, Survives(userId, itemId, itemType));
  }

  /** Deleting a favorite the user does not have leaves the table as it was. */
  lemma DeleteAbsentUnchanged(st: Store, userId: int, itemId: string, itemType: string)
    requires forall k :: 0 <= k < |st.rows| ==>
      !(st.rows[k].user_id == userId && st.rows[k].item_id == itemId && st.rows[k].item_type == itemType)
    ensures DeleteFavorite(st, userId, itemId, itemType, None) == Ok(st)
  {
    FilterAll(st.rows, Survives(userId, itemId, itemType));
  }

  /** After a successful delete, the user's list no longer shows the item. */
  lemma DeleteThenAbsent(st: Store, routes: seq<RouteRecord>, userId: int, itemId: string, itemType: string)
    requires KeysUnique(routes, RouteId)
    ensures
      var listed := GetFavorites(DeleteFavorite(st, userId, itemId, itemType, None).value, routes, userId, None).value;
      listed.List? ==>
        forall k :: 0 <= k < |listed.elems| ==>
          !(listed.elems[k].item_id == itemId && listed.elems[k].item_type == itemType)
  {
    var st2 := DeleteFavorite(st, userId, itemId, itemType, None).value;
    var listed := GetFavorites(st2, routes, userId, None).value;
    if listed.List? {
      ListedMembers(st2, routes, userId);
      forall k | 0 <= k < |listed.elems|
        ensures !(listed.elems[k].item_id == itemId && listed.elems[k].item_type == itemType)
      {
        var f := listed.elems[k];
        assert f in listed.elems;
        var i :| 0 <= i < |st2.rows| && st2.rows[i].user_id == userId && f == ViewOf(routes)(st2.rows[i]);
        assert st2.rows[i] in st2.rows;
      }
    }
  }
}

=== FILE: http.dfy ===
/** What a Gin handler hands back: a status code, a JSON body, and at most
    one write to the response cache. */
module Http {

  const StatusOK := 200
  const StatusBadRequest := 400
  const StatusNotFound := 404
  const StatusInternalServerError := 500

  /** A Go slice as `encoding/json` writes it: a nil slice becomes `null`,
      any other slice (empty included) an array. */
  datatype JsonList<T> = Null | List(elems: seq<T>)

  /** The `cache.Set(key, value, ttl)` a handler performs, if any, with the
      time to live in seconds. */
  datatype CacheWrite<T> = NoWrite | Write(key: string, value: T, ttlSeconds: nat)
}

=== FILE: js.dfy ===
/** JavaScript values as the browser client tests them, and what one of its
    content areas ends up showing. */
module Js {
  import opened Http

  /** A parsed JSON response, seen through `Array.isArray`: anything that is
      not an array (`null`, an object) is `NotArray`. */
  datatype JsArray<T> = NotArray | Array(elems: seq<T>)

  /** The outcome of `await fetch(url)` followed by `await res.json()`: the
      request or the parse rejected with a message, the status was not 2xx,
      or a JSON value arrived. */
  datatype Fetched<T> = Rejected(message: string) | NotOk(status: int) | OkJson(json: JsArray<T>)

  /** What a list or tab area shows: a grey placeholder message, a list of
      rendered items, an error message, or the message of a `TypeError` the
      code ran into (its text depends on the JavaScript engine). */
  datatype Panel<T> =
    | Placeholder(text: string)
    | Listing(items: seq<T>)
    | ErrorText(text: string)
    | TypeErrorShown

  /** `JSON.parse` of what `encoding/json` wrote for a slice. */
  function FromJsonList<T>(l: JsonList<T>): (a: JsArray<T>)
    ensures a.NotArray? <==> l.Null?
    ensures a.Array? ==> a.elems == l.elems
  {
    match l
    case Null => NotArray
    case List(elems) => Array(elems)
  }
}

=== FILE: parser.dfy ===
/** The GTFS static-feed loaders: each CSV file arrives as rows of fields,
    the header row is skipped, every other row is converted by fixed column
    position into a record and inserted with `ON CONFLICT DO NOTHING`, so the
    first row with a given key wins. */
module Parser {
  import opened Wrappers
  import opened Text

  /** One CSV record, as the CSV reader returns it. */
  type Row = seq<string>

  /** A row of the `stops` table. */
  datatype StopRecord = StopRecord(
    stop_id: string,
    stop_name: string,
    stop_lat: Option<Float64>,
    stop_lon: Option<Float64>)

  /** A row of the `routes` table. The name columns are nullable in SQL; the
      loader itself always fills them. */
  datatype RouteRecord = RouteRecord(
    route_id: string,
    agency_id: string,
    route_short_name: Option<string>,
    route_long_name: Option<string>,
    route_type: Option<int>)

  /** A row of the `trips` table. */
  datatype TripRecord = TripRecord(
    trip_id: string,
    route_id: string,
    service_id: string,
    trip_headsign: Option<string>)

  /** A row of the `stop_times` table. */
  datatype StopTimeRecord = StopTimeRecord(
    trip_id: string,
    arrival_time: Option<string>,
    departure_time: Option<string>,
    stop_id: string,
    stop_sequence: Option<int>)

  /** Converting one row either yields a record or indexes past the end of
      the row, which is a Go runtime panic. */
  datatype Converted<R> = Record(rec: R) | IndexPanic

  /** How a loader ends.
      - `Loaded`: every row was processed; `printed` is the count in the
        "Loaded N ..." line and the loader returns nil.
      - `Failed`: the file could not be opened or read, and the error is
        returned before any insert.
      - `Panicked`: the row at index `line` was too short; rows before it are
        already in the table. */
  datatype Load<R> =
    | Loaded(table: seq<R>, printed: int)
    | Failed(error: string)
    | Panicked(table: seq<R>, line: nat)

  // ---------------------------------------------------------------------------
  // Row conversion, one function per table
  // ---------------------------------------------------------------------------

  /** A floating-point column: NULL when empty or when `parseFloat`
      (`strconv.ParseFloat(_, 64)`) rejects it. */
  function NullableFloat(field: string, parseFloat: string -> Option<Float64>): Option<Float64> {
    if field == "" then None else parseFloat(field)
  }

  /** An integer column: NULL when empty or when `strconv.ParseInt(_, 10, 64)`
      rejects it. */
  function NullableInt(field: string): Option<int> {
    if field == "" then None
    else match ParseInt64(field)
      case Num(v) => Some(v)
      case _ => None
  }

  /** A text column: NULL when empty. */
  function NullableText(field: string): Option<string> {
    if field == "" then None else Some(field)
  }

  /** `LoadStops`: `stop_id` from column 0, `stop_name` from column 2,
      latitude and longitude from columns 4 and 5, which are read without a
      length check. */
  function StopFromRow(row: Row, parseFloat: string -> Option<Float64>): (c: Converted<StopRecord>)
    ensures c.IndexPanic? <==> |row| < 6
    ensures c.Record? ==>
      && c.rec.stop_id == row[0]
      && c.rec.stop_name == row[2]
      && (c.rec.stop_lat.None? <==> row[4] == "" || parseFloat(row[4]).None?)
      && (c.rec.stop_lon.None? <==> row[5] == "" || parseFloat(row[5]).None?)
      && (c.rec.stop_lat.Some? ==> parseFloat(row[4]) == c.rec.stop_lat)
      && (c.rec.stop_lon.Some? ==> parseFloat(row[5]) == c.rec.stop_lon)
  {
    if |row| < 6 then IndexPanic
    else Record(StopRecord(row[0], row[2], NullableFloat(row[4], parseFloat), NullableFloat(row[5], parseFloat)))
  }

  /** `LoadRoutes`: columns 0 to 3 are the id, agency, short and long name;
      column 5, read without a length check, is the route type. */
  function RouteFromRow(row: Row): (c: Converted<RouteRecord>)
    ensures c.IndexPanic? <==> |row| < 6
    ensures c.Record? ==>
      && c.rec.route_id == row[0]
      && c.rec.agency_id == row[1]
      && c.rec.route_short_name == Some(row[2])
      && c.rec.route_long_name == Some(row[3])
      && (c.rec.route_type.None? <==> row[5] == "" || !ParseInt64(row[5]).Num?)
      && (c.rec.route_type.Some? ==> ParseInt64(row[5]) == Num(c.rec.route_type.value))
  {
    if |row| < 6 then IndexPanic
    else Record(RouteRecord(row[0], row[1], Some(row[2]), Some(row[3]), NullableInt(row[5])))
  }

  /** `LoadTrips`: `trip_id` is column 2, `route_id` column 0, `service_id`
      column 1; the headsign, column 3, is NULL when missing or empty. */
  function TripFromRow(row: Row): (c: Converted<TripRecord>)
    ensures c.IndexPanic? <==> |row| < 3
    ensures c.Record? ==>
      && c.rec.trip_id == row[2]
      && c.rec.route_id == row[0]
      && c.rec.service_id == row[1]
      && (c.rec.trip_headsign.Some? <==> |row| > 3 && row[3] != "")
      && (c.rec.trip_headsign.Some? ==> c.rec.trip_headsign.value == row[3])
  {
    if |row| < 3 then IndexPanic
    else
      var headsign := if |row| > 3 then NullableText(row[3]) else None;
      Record(TripRecord(row[2], row[0], row[1], headsign))
  }

  /** `LoadStopTimes`: `trip_id` is column 0 and `stop_id` column 3, read
      without a length check; arrival (1), departure (2) and sequence (4) are
      NULL when missing or empty, and the sequence also when it does not
      parse as a base-10 integer. */
  function StopTimeFromRow(row: Row): (c: Converted<StopTimeRecord>)
    ensures c.IndexPanic? <==> |row| < 4
    ensures c.Record? ==>
      && c.rec.trip_id == row[0]
      && c.rec.stop_id == row[3]
      && (c.rec.arrival_time.Some? <==> row[1] != "")
      && (c.rec.arrival_time.Some? ==> c.rec.arrival_time.value == row[1])
      && (c.rec.departure_time.Some? <==> row[2] != "")
      && (c.rec.departure_time.Some? ==> c.rec.departure_time.value == row[2])
      && (c.rec.stop_sequence.Some? <==> |row| > 4 && row[4] != "" && ParseInt64(row[4]).Num?)
      && (c.rec.stop_sequence.Some? ==> ParseInt64(row[4]) == Num(c.rec.stop_sequence.value))
  {
    if |row| < 4 then IndexPanic
    else
      var sequence := if |row| > 4 then NullableInt(row[4]) else None;
      Record(StopTimeRecord(row[0], NullableText(row[1]), NullableText(row[2]), row[3], sequence))
  }

  /** A route type written as a decimal integer in the signed 64-bit range is
      stored as that integer. */
  lemma RouteTypeRoundTrip(row: Row, n: int)
    requires |row| >= 6 && row[5] == IntToString(n) && MinInt64 <= n <= MaxInt64
    ensures RouteFromRow(row).rec.route_type == Some(n)
  {
    ParseIntRoundTrip(n);
  }

  // ---------------------------------------------------------------------------
  // Insertion with ON CONFLICT DO NOTHING
  // ---------------------------------------------------------------------------

  /** The first record of `s` whose key is `k`. */
  function FirstByKey<R, K(==)>(s: seq<R>, key: R -> K, k: K): (r: Option<R>)
    ensures r.Some? ==> r.value in s && key(r.value) == k
    ensures r.None? <==> forall i :: 0 <= i < |s| ==> key(s[i]) != k
  {
    if |s| == 0 then None
    else if key(s[0]) == k then Some(s[0])
    else FirstByKey(s[1..], key, k)
  }

  /** The match `FirstByKey` finds is the earliest one: the record at any
      position whose key matches, with no match before it. */
  lemma {:induction false} FirstByKeyEarliest<R, K>(s: seq<R>, key: R -> K, k: K, i: nat)
    requires i < |s| && key(s[i]) == k
    requires forall j :: 0 <= j < i ==> key(s[j]) != k
    ensures FirstByKey(s, key, k) == Some(s[i])
  {
    if i > 0 {
      assert forall j :: 0 <= j < i - 1 ==> s[1..][j] == s[j + 1];
      FirstByKeyEarliest(s[1..], key, k, i - 1);
    }
  }

  /** No two records of `s` share a key. */
  predicate KeysUnique<R, K(==)>(s: seq<R>, key: R -> K) {
    forall i, j :: 0 <= i < j < |s| ==> key(s[i]) != key(s[j])
  }

  /** One `INSERT ... ON CONFLICT DO NOTHING`. `accept` stands for the
      table's other constraints: a rejected record is logged and skipped. */
  function Insert<R, K(==)>(table: seq<R>, rec: R, key: R -> K, accept: R -> bool): (t: seq<R>)
    ensures !accept(rec) || FirstByKey(table, key, key(rec)).Some? ==> t == table
    ensures accept(rec) && FirstByKey(table, key, key(rec)).None? ==> t == table + [rec]
    // The earlier records keep their place and keys stay unique.
    ensures |t| >= |table| && t[..|table|] == table
    ensures KeysUnique(table, key) ==> KeysUnique(t, key)
  {
    if !accept(rec) then table
    else if FirstByKey(table, key, key(rec)).Some? then table
    else
      assert (table + [rec])[..|table|] == table;
      table + [rec]
  }

  /** An insert changes no lookup except that of the inserted key, and that
      one only from no match to the record, when the table accepts it. */
  lemma InsertLookup<R, K>(table: seq<R>, rec: R, key: R -> K, accept: R -> bool, k: K)
    ensures FirstByKey(Insert(table, rec, key, accept), key, k) ==
      if k == key(rec) && accept(rec) && FirstByKey(table, key, k).None? then Some(rec)
      else FirstByKey(table, key, k)
  {
    if accept(rec) && FirstByKey(table, key, key(rec)).None? {
      FirstByKeyAppend(table, rec, key, k);
    }
  }

  /** Appending a record changes the first match for a key only when the key
      had no match before. */
  lemma {:induction false} FirstByKeyAppend<R, K>(s: seq<R>, x: R, key: R -> K, k: K)
    ensures FirstByKey(s + [x], key, k) ==
      if FirstByKey(s, key, k).Some? then FirstByKey(s, key, k)
      else if key(x) == k then Some(x) else None
  {
    if |s| > 0 {
      assert (s + [x])[1..] == s[1..] + [x];
      FirstByKeyAppend(s[1..], x, key, k);
    }
  }

  /** The records the rows yield that the table accepts, in row order
      (rows that would panic yield nothing here). */
  function Accepted<R>(rows: seq<Row>, convert: Row -> Converted<R>, accept: R -> bool): seq<R> {
    if |rows| == 0 then []
    else
      var last := match convert(rows[|rows| - 1])
        case Record(r) => if accept(r) then [r] else []
        case IndexPanic => [];
      Accepted(rows[..|rows| - 1], convert, accept) + last
  }

  // ---------------------------------------------------------------------------
  // The loader loop
  // ---------------------------------------------------------------------------

  /** The `for i, row := range rows` loop from index `i` on, with the table
      as it stands after the earlier rows. Index 0 is the header and is
      skipped. */
  function LoadFrom<R, K(==)>(rows: seq<Row>, i: nat, table: seq<R>,
                              convert: Row -> Converted<R>, key: R -> K, accept: R -> bool): (r: Load<R>)
    requires i <= |rows|
    ensures !r.Failed?
    ensures r.Loaded? ==> r.printed == |rows| - 1
    ensures r.Loaded? <==> forall j :: i <= j < |rows| && j != 0 ==> convert(rows[j]).Record?
    ensures r.Panicked? ==>
      && i <= r.line < |rows| && r.line != 0
      && convert(rows[r.line]).IndexPanic?
      && forall j :: i <= j < r.line && j != 0 ==> convert(rows[j]).Record?
    decreases |rows| - i
  {
    if i == |rows| then Loaded(table, |rows| - 1)
    else if i == 0 then LoadFrom(rows, 1, table, convert, key, accept)
    else match convert(rows[i])
      case IndexPanic => Panicked(table, i)
      case Record(rec) => LoadFrom(rows, i + 1, Insert(table, rec, key, accept), convert, key, accept)
  }

  /** A whole file of rows inserted into the existing table `db`. */
  function LoadRows<R, K(==)>(db: seq<R>, rows: seq<Row>,
                              convert: Row -> Converted<R>, key: R -> K, accept: R -> bool): Load<R> {
    LoadFrom(rows, 0, db, convert, key, accept)
  }

  /** How many data rows the loader got through: all of them, or those
      before the one that panicked. */
  function RowsDone<R>(r: Load<R>, rows: seq<Row>): nat
    requires |rows| > 0
  {
    match r
    case Panicked(_, line) => if line < |rows| then line else |rows|
    case _ => |rows|
  }

  /** First-wins loading: for every key, the table the loader leaves behind
      holds exactly the record that comes first with that key among the
      existing rows followed by the accepted CSV rows processed, and keys
      stay unique. Row 0 plays no part. */
  lemma {:induction false} LoadKeepsFirst<R, K>(db: seq<R>, rows: seq<Row>,
                                                    convert: Row -> Converted<R>, key: R -> K, accept: R -> bool)
    requires |rows| > 0
    ensures var r := LoadRows(db, rows, convert, key, accept);
      !r.Failed? &&
      var done := RowsDone(r, rows);
      && 1 <= done
      && (forall k :: FirstByKey(r.table, key, k) == FirstByKey(db + Accepted(rows[1..done], convert, accept), key, k))
      && (KeysUnique(db, key) ==> KeysUnique(r.table, key))
  {
    assert rows[1..1] == [];
    assert db + Accepted(rows[1..1], convert, accept) == db;
    LoadFromKeepsFirst(db, rows, 1, db, convert, key, accept);
  }

  lemma {:induction false} LoadFromKeepsFirst<R, K>(db: seq<R>, rows: seq<Row>, i: nat, table: seq<R>,
                                                        convert: Row -> Converted<R>, key: R -> K, accept: R -> bool)
    requires 1 <= i <= |rows|
    requires forall k :: FirstByKey(table, key, k) == FirstByKey(db + Accepted(rows[1..i], convert, accept), key, k)
    requires KeysUnique(db, key) ==> KeysUnique(table, key)
    ensures var r := LoadFrom(rows, i, table, convert, key, accept);
      var done := RowsDone(r, rows);
      && i <= done
      && (forall k :: FirstByKey(r.table, key, k) == FirstByKey(db + Accepted(rows[1..done], convert, accept), key, k))
      && (KeysUnique(db, key) ==> KeysUnique(r.table, key))
    decreases |rows| - i
  {
    if i == |rows| {
      assert LoadFrom(rows, i, table, convert, key, accept) == Loaded(table, |rows| - 1);
    } else if convert(rows[i]).IndexPanic? {
      assert LoadFrom(rows, i, table, convert, key, accept) == Panicked(table, i);
    } else {
      var next := Insert(table, convert(rows[i]).rec, key, accept);
      forall k
        ensures FirstByKey(next, key, k) == FirstByKey(db + Accepted(rows[1..i + 1], convert, accept), key, k)
      {
        LoadStepKeepsFirst(db, rows, i, table, convert, key, accept, k);
      }
      assert LoadFrom(rows, i, table, convert, key, accept) == LoadFrom(rows, i + 1, next, convert, key, accept);
      LoadFromKeepsFirst(db, rows, i + 1, next, convert, key, accept);
    }
  }

  /** One inserted row keeps a key's lookup equal to the first-wins
      reference. */
  lemma LoadStepKeepsFirst<R, K>(db: seq<R>, rows: seq<Row>, i: nat, table: seq<R>,
                                 convert: Row -> Converted<R>, key: R -> K, accept: R -> bool, k: K)
    requires 1 <= i < |rows| && convert(rows[i]).Record?
    requires FirstByKey(table, key, k) == FirstByKey(db + Accepted(rows[1..i], convert, accept), key, k)
    ensures FirstByKey(Insert(table, convert(rows[i]).rec, key, accept), key, k)
      == FirstByKey(db + Accepted(rows[1..i + 1], convert, accept), key, k)
  {
    var rec := convert(rows[i]).rec;
    var acc := Accepted(rows[1..i], convert, accept);
    AcceptedStep(rows, i, convert, accept);
    InsertLookup(table, rec, key, accept, k);
    if accept(rec) {
      assert db + Accepted(rows[1..i + 1], convert, accept) == (db + acc) + [rec];
      FirstByKeyAppend(db + acc, rec, key, k);
    } else {
      assert db + Accepted(rows[1..i + 1], convert, accept) == db + acc;
    }
  }

  lemma AcceptedStep<R>(rows: seq<Row>, i: nat, convert: Row -> Converted<R>, accept: R -> bool)
    requires 1 <= i < |rows| && convert(rows[i]).Record?
    ensures Accepted(rows[1..i + 1], convert, accept) ==
      Accepted(rows[1..i], convert, accept)
        + (if accept(convert(rows[i]).rec) then [convert(rows[i]).rec] else [])
  {
    assert rows[1..i + 1][..i - 1] == rows[1..i];
  }

  /** The header row is never inserted and never even indexed: loading gives
      the same outcome whatever row 0 holds. */
  lemma HeaderIgnored<R, K>(db: seq<R>, h1: Row, h2: Row, body: seq<Row>,
                                convert: Row -> Converted<R>, key: R -> K, accept: R -> bool)
    ensures LoadRows(db, [h1] + body, convert, key, accept) == LoadRows(db, [h2] + body, convert, key, accept)
  {
    var rows1, rows2 := [h1] + body, [h2] + body;
    assert LoadRows(db, rows1, convert, key, accept) == LoadFrom(rows1, 1, db, convert, key, accept);
    assert LoadRows(db, rows2, convert, key, accept) == LoadFrom(rows2, 1, db, convert, key, accept);
    SameTailSameLoad(rows1, rows2, 1, db, convert, key, accept);
  }

  lemma {:induction false} SameTailSameLoad<R, K>(rows1: seq<Row>, rows2: seq<Row>, i: nat, table: seq<R>,
                                                      convert: Row -> Converted<R>, key: R -> K, accept: R -> bool)
    requires 1 <= i <= |rows1| == |rows2| && rows1[1..] == rows2[1..]
    ensures LoadFrom(rows1, i, table, convert, key, accept) == LoadFrom(rows2, i, table, convert, key, accept)
    decreases |rows1| - i
  {
    if i < |rows1| {
      assert rows1[i] == rows1[1..][i - 1] == rows2[i];
      match convert(rows1[i])
      case IndexPanic =>
      case Record(rec) =>
        SameTailSameLoad(rows1, rows2, i + 1, Insert(table, rec, key, accept), convert, key, accept);
    }
  }

  /** The printed count and whether the load finishes do not depend on which
      inserts the database rejects: failed inserts are logged and the loop
      goes on. */
  lemma {:induction false} FailedInsertsDoNotStopTheLoop<R, K>(rows: seq<Row>, i: nat, t1: seq<R>, t2: seq<R>,
                                                                   convert: Row -> Converted<R>, key: R -> K,
                                                                   accept1: R -> bool, accept2: R -> bool)
    requires i <= |rows|
    ensures var r1 := LoadFrom(rows, i, t1, convert, key, accept1);
            var r2 := LoadFrom(rows, i, t2, convert, key, accept2);
            && r1.Loaded? == r2.Loaded?
            && (r1.Loaded? ==> r1.printed == r2.printed == |rows| - 1)
            && (r1.Panicked? ==> r2.Panicked? && r1.line == r2.line)
    decreases |rows| - i
  {
    if i == 0 && i < |rows| {
      FailedInsertsDoNotStopTheLoop(rows, 1, t1, t2, convert, key, accept1, accept2);
    } else if i < |rows| {
      match convert(rows[i])
      case IndexPanic =>
      case Record(rec) =>
        FailedInsertsDoNotStopTheLoop(rows, i + 1, Insert(t1, rec, key, accept1), Insert(t2, rec, key, accept2),
                                      convert, key, accept1, accept2);
    }
  }

  // ---------------------------------------------------------------------------
  // The four loaders
  // ---------------------------------------------------------------------------

  /** The conflict keys of the three tables whose `ON CONFLICT` names a
      column. */
  function StopId(s: StopRecord): string { s.stop_id }
  function RouteId(r: RouteRecord): string { r.route_id }
  function TripId(t: TripRecord): string { t.trip_id }

  /** The stop row converter, with `strconv.ParseFloat` supplied. */
  function StopConverter(parseFloat: string -> Option<Float64>): Row -> Converted<StopRecord> {
    row => StopFromRow(row, parseFloat)
  }

  /** What loading a non-empty `rows` into `db` promises, whatever the table:
      - it never returns an error;
      - it completes exactly when no data row is too short, and then prints
        `len(rows) - 1`;
      - otherwise it stops at the first data row that is too short;
      - every key then finds the record that comes first with that key among
        the existing table followed by the accepted rows processed, and keys
        stay unique. */
  ghost predicate FirstWins<R, K(!new)>(db: seq<R>, rows: seq<Row>, convert: Row -> Converted<R>,
                                         key: R -> K, accept: R -> bool, r: Load<R>)
    requires |rows| > 0
  {
    && !r.Failed?
    && (r.Loaded? <==> forall j :: 1 <= j < |rows| ==> convert(rows[j]).Record?)
    && (r.Loaded? ==> r.printed == |rows| - 1)
    && (r.Panicked? ==>
          && 1 <= r.line < |rows| && convert(rows[r.line]).IndexPanic?
          && forall j :: 1 <= j < r.line ==> convert(rows[j]).Record?)
    && (forall k :: FirstByKey(r.table, key, k) ==
                    FirstByKey(db + Accepted(rows[1..RowsDone(r, rows)], convert, accept), key, k))
    && (KeysUnique(db, key) ==> KeysUnique(r.table, key))
  }

  lemma LoadRowsFirstWins<R, K(!new)>(db: seq<R>, rows: seq<Row>, convert: Row -> Converted<R>,
                                         key: R -> K, accept: R -> bool)
    requires |rows| > 0
    ensures FirstWins(db, rows, convert, key, accept, LoadRows(db, rows, convert, key, accept))
  {
    LoadKeepsFirst(db, rows, convert, key, accept);
  }

  /** `LoadStops`, keyed by `stop_id`. A file that cannot be opened or read
      is returned as the error; anything else loads as `LoadRows` does. */
  function LoadStops(db: seq<StopRecord>, file: Result<seq<Row>, string>,
                     parseFloat: string -> Option<Float64>, accept: StopRecord -> bool): (r: Load<StopRecord>)
    ensures file.Err? <==> r.Failed?
    ensures file.Err? ==> r.error == file.error
    ensures file.Ok? && |file.value| <= 1 ==> r == Loaded(db, |file.value| - 1)
    ensures file.Ok? && |file.value| > 0 ==> FirstWins(db, file.value, StopConverter(parseFloat), StopId, accept, r)
  {
    match file
    case Err(e) => Failed(e)
    case Ok(rows) =>
      if |rows| == 0 then LoadRows(db, rows, StopConverter(parseFloat), StopId, accept)
      else
        LoadRowsFirstWins(db, rows, StopConverter(parseFloat), StopId, accept);
        assert |rows| == 1 ==> LoadRows(db, rows, StopConverter(parseFloat), StopId, accept)
                               == LoadFrom(rows, 1, db, StopConverter(parseFloat), StopId, accept);
        LoadRows(db, rows, StopConverter(parseFloat), StopId, accept)
  }

  /** What `LoadRoutes`, `LoadTrips` and `LoadStopTimes` see when they ignore
      the open and read errors: the CSV reader returns no rows. */
  function RowsOrNone(file: Result<seq<Row>, string>): (rows: seq<Row>)
    ensures file.Err? ==> rows == []
    ensures file.Ok? ==> rows == file.value
  {
    match file
    case Ok(rows) => rows
    case Err(_) => []
  }

  /** `LoadRoutes`, keyed by `route_id`. A missing or unreadable file loads
      nothing, prints a count of -1 and returns nil. */
  function LoadRoutes(db: seq<RouteRecord>, file: Result<seq<Row>, string>,
                      accept: RouteRecord -> bool): (r: Load<RouteRecord>)
    ensures !r.Failed?
    ensures file.Err? ==> r == Loaded(db, -1)
    ensures file.Ok? && |file.value| <= 1 ==> r == Loaded(db, |file.value| - 1)
    ensures file.Ok? && |file.value| > 0 ==> FirstWins(db, file.value, RouteFromRow, RouteId, accept, r)
  {
    var rows := RowsOrNone(file);
    if |rows| == 0 then LoadRows(db, rows, RouteFromRow, RouteId, accept)
    else
      LoadRowsFirstWins(db, rows, RouteFromRow, RouteId, accept);
      assert |rows| == 1 ==> LoadRows(db, rows, RouteFromRow, RouteId, accept)
                             == LoadFrom(rows, 1, db, RouteFromRow, RouteId, accept);
      LoadRows(db, rows, RouteFromRow, RouteId, accept)
  }

  /** `LoadTrips`, keyed by `trip_id`; same error handling as `LoadRoutes`. */
  function LoadTrips(db: seq<TripRecord>, file: Result<seq<Row>, string>,
                     accept: TripRecord -> bool): (r: Load<TripRecord>)
    ensures !r.Failed?
    ensures file.Err? ==> r == Loaded(db, -1)
    ensures file.Ok? && |file.value| <= 1 ==> r == Loaded(db, |file.value| - 1)
    ensures file.Ok? && |file.value| > 0 ==> FirstWins(db, file.value, TripFromRow, TripId, accept, r)
  {
    var rows := RowsOrNone(file);
    if |rows| == 0 then LoadRows(db, rows, TripFromRow, TripId, accept)
    else
      LoadRowsFirstWins(db, rows, TripFromRow, TripId, accept);
      assert |rows| == 1 ==> LoadRows(db, rows, TripFromRow, TripId, accept)
                             == LoadFrom(rows, 1, db, TripFromRow, TripId, accept);
      LoadRows(db, rows, TripFromRow, TripId, accept)
  }

  /** `LoadStopTimes`. Its `ON CONFLICT DO NOTHING` names no column, so the
      conflict key is whatever unique constraint the table carries; it is a
      parameter here. Same error handling as `LoadRoutes`. */
  function LoadStopTimes<K(==,!new)>(db: seq<StopTimeRecord>, file: Result<seq<Row>, string>,
                                     key: StopTimeRecord -> K, accept: StopTimeRecord -> bool)
    : (r: Load<StopTimeRecord>)
    ensures !r.Failed?
    ensures file.Err? ==> r == Loaded(db, -1)
    ensures file.Ok? && |file.value| <= 1 ==> r == Loaded(db, |file.value| - 1)
    ensures file.Ok? && |file.value| > 0 ==> FirstWins(db, file.value, StopTimeFromRow, key, accept, r)
  {
    var rows := RowsOrNone(file);
    if |rows| == 0 then LoadRows(db, rows, StopTimeFromRow, key, accept)
    else
      LoadRowsFirstWins(db, rows, StopTimeFromRow, key, accept);
      assert |rows| == 1 ==> LoadRows(db, rows, StopTimeFromRow, key, accept)
                             == LoadFrom(rows, 1, db, StopTimeFromRow, key, accept);
      LoadRows(db, rows, StopTimeFromRow, key, accept)
  }
}

=== FILE: realtime.dfy ===
/** The three handlers that relay the public GTFS Realtime feeds:
    `GetLiveVehicles` and `GetTripUpdates` keep the feed entities of one
    route, `GetAlerts` passes the whole alert feed through. Each consults the
    cache first, and caches what it computed. */
module RealTime {
  import opened Wrappers
  import opened Text
  import opened Http
  import opened CacheKeys
  import opened Seqs

  // ---------------------------------------------------------------------------
  // VehiclePositions feed
  // ---------------------------------------------------------------------------

  datatype Position = Position(latitude: Float64, longitude: Float64, bearing: Float64)

  datatype TripDescriptor = TripDescriptor(
    start_time: string,
    route_id: string,
    direction_id: int,
    trip_id: string,
    schedule_relationship: string,
    start_date: string,
    last_trip: bool,
    revenue: bool)

  datatype VehicleDescriptor = VehicleDescriptor(id: string, label_text: string)

  /** The `vehicle` object of a feed entity. Absent JSON fields decode as
      the zero value of their type. */
  datatype VehiclePosition = VehiclePosition(
    current_status: string,
    current_stop_sequence: int,
    occupancy_percentage: int,
    occupancy_status: string,
    stop_id: string,
    timestamp: int,
    position: Position,
    trip: TripDescriptor,
    vehicle: VehicleDescriptor)

  datatype VehicleEntity = VehicleEntity(id: string, vehicle: VehiclePosition)

  /** The flattened record `GetLiveVehicles` returns for each vehicle. */
  datatype LiveVehicle = LiveVehicle(
    vehicle_id: string,
    label_text: string,
    route_id: string,
    trip_id: string,
    latitude: Float64,
    longitude: Float64,
    bearing: Float64,
    occupancy_status: string,
    occupancy_percentage: int,
    stop_id: string,
    current_stop_sequence: int,
    direction_id: int,
    timestamp: int,
    status: string)

  // ---------------------------------------------------------------------------
  // Alerts feed
  // ---------------------------------------------------------------------------

  datatype Translation = Translation(text: string)
  datatype TranslatedString = TranslatedString(translation: seq<Translation>)
  datatype InformedEntity = InformedEntity(route_id: string, stop_id: string)
  datatype ActivePeriod = ActivePeriod(start: int, end: int)

  datatype Alert = Alert(
    header_text: TranslatedString,
    description_text: TranslatedString,
    effect: string,
    informed_entity: seq<InformedEntity>,
    active_period: seq<ActivePeriod>)

  datatype AlertEntity = AlertEntity(id: string, alert: Alert)

  // ---------------------------------------------------------------------------
  // TripUpdates feed
  // ---------------------------------------------------------------------------

  datatype TripRef = TripRef(trip_id: string, route_id: string)
  datatype Arrival = Arrival(time: int, uncertainty: int)
  datatype StopTimeUpdate = StopTimeUpdate(stop_id: string, arrival: Arrival)
  datatype TripUpdate = TripUpdate(trip: TripRef, stop_time_update: seq<StopTimeUpdate>)
  datatype TripUpdateEntity = TripUpdateEntity(trip_update: TripUpdate)

  // ---------------------------------------------------------------------------
  // Replies
  // ---------------------------------------------------------------------------

  datatype FeedBody<T> = ErrorBody(error: string) | Items(list: JsonList<T>)

  datatype FeedReply<T> = FeedReply(status: int, body: FeedBody<T>, cacheWrite: CacheWrite<seq<T>>)

  /** Times to live of the cached replies, in seconds. */
  const LiveTtl := 10
  const AlertsTtl := 60
  const TripUpdatesTtl := 10

  /** The feed as fetched and decoded: the entities, or the error text of
      `http.Get` or of the JSON decoder, whichever failed first. */
  type Fetched<T> = Result<seq<T>, string>

  // ---------------------------------------------------------------------------
  // GetLiveVehicles
  // ---------------------------------------------------------------------------

  /** The entity belongs to route `routeId` (`v.Trip.RouteID == routeID`). */
  function OnRoute(routeId: string): VehicleEntity -> bool {
    (e: VehicleEntity) => e.vehicle.trip.route_id == routeId
  }

  /** Field-by-field copy of a feed entity into a `LiveVehicle`. */
  function Project(e: VehicleEntity): (lv: LiveVehicle)
    ensures lv.vehicle_id == e.vehicle.vehicle.id && lv.label_text == e.vehicle.vehicle.label_text
    ensures lv.route_id == e.vehicle.trip.route_id && lv.trip_id == e.vehicle.trip.trip_id
    ensures lv.status == e.vehicle.current_status && lv.stop_id == e.vehicle.stop_id
    ensures lv.direction_id == e.vehicle.trip.direction_id
    ensures lv.latitude == e.vehicle.position.latitude && lv.longitude == e.vehicle.position.longitude
    ensures lv.bearing == e.vehicle.position.bearing
    ensures lv.occupancy_status == e.vehicle.occupancy_status
    ensures lv.occupancy_percentage == e.vehicle.occupancy_percentage
    ensures lv.current_stop_sequence == e.vehicle.current_stop_sequence
    ensures lv.timestamp == e.vehicle.timestamp
  {
    var v := e.vehicle;
    LiveVehicle(v.vehicle.id, v.vehicle.label_text, v.trip.route_id, v.trip.trip_id,
                v.position.latitude, v.position.longitude, v.position.bearing,
                v.occupancy_status, v.occupancy_percentage, v.stop_id,
                v.current_stop_sequence, v.trip.direction_id, v.timestamp, v.current_status)
  }

  /** `GetLiveVehicles` for path parameter `routeId`, cache lookup `cache`
      and the fetched feed `feed`. */
  method GetLiveVehicles(routeId: string, cache: string -> Option<seq<LiveVehicle>>, feed: Fetched<VehicleEntity>)
    returns (reply: FeedReply<LiveVehicle>)
    ensures cache(LiveKey(routeId)).Some? ==>
      reply == FeedReply(StatusOK, Items(List(cache(LiveKey(routeId)).value)), NoWrite)
    ensures cache(LiveKey(routeId)).None? && feed.Err? ==>
      reply == FeedReply(StatusInternalServerError, ErrorBody(feed.error), NoWrite)
    ensures cache(LiveKey(routeId)).None? && feed.Ok? ==>
      && reply.status == StatusOK
      && reply.body.Items? && reply.body.list.List?
      && var vs := reply.body.list.elems;
      && Selects(feed.value, vs, OnRoute(routeId), Project)
      && (forall k :: 0 <= k < |vs| ==> vs[k].route_id == routeId)
      && reply.cacheWrite == Write(LiveKey(routeId), vs, LiveTtl)
  {
    var key := LiveKey(routeId);
    if cache(key).Some? {
      return FeedReply(StatusOK, Items(List(cache(key).value)), NoWrite);
    }
    if feed.Err? {
      return FeedReply(StatusInternalServerError, ErrorBody(feed.error), NoWrite);
    }
    var entities := feed.value;
    var result: seq<LiveVehicle> := [];
    ghost var idx: seq<int> := [];
    var i := 0;
    while i < |entities|
      invariant 0 <= i <= |entities|
      invariant KeptPositions(entities[..i], OnRoute(routeId), idx)
      invariant MappedAt(entities, result, Project, idx)
      invariant forall k :: 0 <= k < |result| ==> result[k].route_id == routeId
    {
      var v := entities[i].vehicle;
      KeptStep(entities, i, OnRoute(routeId), idx);
      if v.trip.route_id == routeId {
        result := result + [Project(entities[i])];
        idx := idx + [i];
      }
      i := i + 1;
    }
    assert entities[..i] == entities;
    return FeedReply(StatusOK, Items(List(result)), Write(key, result, LiveTtl));
  }

  // ---------------------------------------------------------------------------
  // GetAlerts
  // ---------------------------------------------------------------------------

  /** `GetAlerts`: the whole alert feed, unfiltered. */
  method GetAlerts(cache: string -> Option<seq<AlertEntity>>, feed: Fetched<AlertEntity>)
    returns (reply: FeedReply<AlertEntity>)
    ensures cache(AlertsKey).Some? ==>
      reply == FeedReply(StatusOK, Items(List(cache(AlertsKey).value)), NoWrite)
    ensures cache(AlertsKey).None? && feed.Err? ==>
      reply == FeedReply(StatusInternalServerError, ErrorBody(feed.error), NoWrite)
    ensures cache(AlertsKey).None? && feed.Ok? ==>
      && reply.status == StatusOK
      && reply.body.Items? && reply.body.list.List?
      && |reply.body.list.elems| == |feed.value|
      && (forall k :: 0 <= k < |feed.value| ==> reply.body.list.elems[k] == feed.value[k])
      && reply.cacheWrite == Write(AlertsKey, reply.body.list.elems, AlertsTtl)
  {
    if cache(AlertsKey).Some? {
      return FeedReply(StatusOK, Items(List(cache(AlertsKey).value)), NoWrite);
    }
    if feed.Err? {
      return FeedReply(StatusInternalServerError, ErrorBody(feed.error), NoWrite);
    }
    var entities := feed.value;
    var alerts: seq<AlertEntity> := [];
    var i := 0;
    while i < |entities|
      invariant 0 <= i <= |entities|
      invariant alerts == entities[..i]
    {
      alerts := alerts + [entities[i]];
      i := i + 1;
    }
    assert entities[..i] == entities;
    return FeedReply(StatusOK, Items(List(alerts)), Write(AlertsKey, alerts, AlertsTtl));
  }

  // ---------------------------------------------------------------------------
  // GetTripUpdates
  // ---------------------------------------------------------------------------

  /** The update belongs to route `routeId`. */
  function UpdateOnRoute(routeId: string): TripUpdateEntity -> bool {
    (e: TripUpdateEntity) => e.trip_update.trip.route_id == routeId
  }

  /** `GetTripUpdates` for path parameter `routeId`: the route's entities,
      unchanged and in feed order. */
  method GetTripUpdates(routeId: string, cache: string -> Option<seq<TripUpdateEntity>>,
                        feed: Fetched<TripUpdateEntity>)
    returns (reply: FeedReply<TripUpdateEntity>)
    ensures cache(TripUpdatesKey(routeId)).Some? ==>
      reply == FeedReply(StatusOK, Items(List(cache(TripUpdatesKey(routeId)).value)), NoWrite)
    ensures cache(TripUpdatesKey(routeId)).None? && feed.Err? ==>
      reply == FeedReply(StatusInternalServerError, ErrorBody(feed.error), NoWrite)
    ensures cache(TripUpdatesKey(routeId)).None? && feed.Ok? ==>
      && reply.status == StatusOK
      && reply.body.Items? && reply.body.list.List?
      && SubsequenceOf(feed.value, reply.body.list.elems, UpdateOnRoute(routeId))
      && reply.cacheWrite == Write(TripUpdatesKey(routeId), reply.body.list.elems, TripUpdatesTtl)
  {
    var key := TripUpdatesKey(routeId);
    if cache(key).Some? {
      return FeedReply(StatusOK, Items(List(cache(key).value)), NoWrite);
    }
    if feed.Err? {
      return FeedReply(StatusInternalServerError, ErrorBody(feed.error), NoWrite);
    }
    var entities := feed.value;
    var result: seq<TripUpdateEntity> := [];
    ghost var idx: seq<int> := [];
    var i := 0;
    while i < |entities|
      invariant 0 <= i <= |entities|
      invariant KeptPositions(entities[..i], UpdateOnRoute(routeId), idx)
      invariant PickedAt(entities, result, idx)
    {
      KeptStep(entities, i, UpdateOnRoute(routeId), idx);
      if entities[i].trip_update.trip.route_id == routeId {
        result := result + [entities[i]];
        idx := idx + [i];
      }
      i := i + 1;
    }
    assert entities[..i] == entities;
    return FeedReply(StatusOK, Items(List(result)), Write(key, result, TripUpdatesTtl));
  }
}

=== FILE: seqs.dfy ===
/** Order-preserving selection from a sequence: the shape shared by
    `Array.prototype.filter` in the client and the `for ... range` loops with
    an `if` and an `append` in the handlers. */
module Seqs {

  /** `idx` lists, in increasing order, exactly the positions of `xs` whose
      element satisfies `keep`. */
  ghost predicate KeptPositions<A>(xs: seq<A>, keep: A -> bool, idx: seq<int>) {
    && (forall k :: 0 <= k < |idx| ==> 0 <= idx[k] < |xs| && keep(xs[idx[k]]))
    && (forall k, l :: 0 <= k < l < |idx| ==> idx[k] < idx[l])
    && (forall j :: 0 <= j < |xs| && keep(xs[j]) ==> j in idx)
  }

  /** `ys` holds `f` of the elements of `xs` at positions `idx`, in order. */
  ghost predicate MappedAt<A, B>(xs: seq<A>, ys: seq<B>, f: A -> B, idx: seq<int>) {
    |idx| == |ys| && forall k :: 0 <= k < |ys| ==> 0 <= idx[k] < |xs| && ys[k] == f(xs[idx[k]])
  }

  /** `ys` holds the elements of `xs` at positions `idx`, in order. */
  ghost predicate PickedAt<A>(xs: seq<A>, ys: seq<A>, idx: seq<int>) {
    |idx| == |ys| && forall k :: 0 <= k < |ys| ==> 0 <= idx[k] < |xs| && ys[k] == xs[idx[k]]
  }

  /** `ys` is `f` applied to the elements of `xs` that satisfy `keep`, each
      once, in their original order. */
  ghost predicate Selects<A, B>(xs: seq<A>, ys: seq<B>, keep: A -> bool, f: A -> B) {
    exists idx :: KeptPositions(xs, keep, idx) && MappedAt(xs, ys, f, idx)
  }

  /** `ys` is the elements of `xs` that satisfy `keep`, each once, in their
      original order: an order-preserving sub-sequence. */
  ghost predicate SubsequenceOf<A>(xs: seq<A>, ys: seq<A>, keep: A -> bool) {
    exists idx :: KeptPositions(xs, keep, idx) && PickedAt(xs, ys, idx)
  }

  /** Looking at one more element of `xs` extends the kept positions. */
  lemma KeptStep<A>(xs: seq<A>, i: nat, keep: A -> bool, idx: seq<int>)
    requires i < |xs| && KeptPositions(xs[..i], keep, idx)
    ensures keep(xs[i]) ==> KeptPositions(xs[..i + 1], keep, idx + [i])
    ensures !keep(xs[i]) ==> KeptPositions(xs[..i + 1], keep, idx)
  {
    assert forall k :: 0 <= k < |idx| ==> idx[k] < i;
  }

  /** `xs.filter(keep)`. */
  function Filter<T>(xs: seq<T>, keep: T -> bool): (ys: seq<T>)
    ensures |ys| <= |xs|
    ensures forall y :: y in ys ==> y in xs && keep(y)
    ensures forall j :: 0 <= j < |xs| && keep(xs[j]) ==> xs[j] in ys
  {
    if |xs| == 0 then []
    else
      var init := xs[..|xs| - 1];
      var last := xs[|xs| - 1];
      assert xs == init + [last];
      Filter(init, keep) + (if keep(last) then [last] else [])
  }

  /** `Filter` keeps exactly the satisfying elements, once each, in order. */
  lemma FilterSelects<T>(xs: seq<T>, keep: T -> bool)
    ensures SubsequenceOf(xs, Filter(xs, keep), keep)
  {
    var idx := FilterPositions(xs, keep);
  }

  /** The positions `Filter` keeps, found by scanning as the filter does. */
  lemma {:induction false} FilterPositions<T>(xs: seq<T>, keep: T -> bool) returns (idx: seq<int>)
    ensures KeptPositions(xs, keep, idx) && PickedAt(xs, Filter(xs, keep), idx)
  {
    idx := [];
    var i := 0;
    while i < |xs|
      invariant 0 <= i <= |xs|
      invariant KeptPositions(xs[..i], keep, idx) && PickedAt(xs, Filter(xs[..i], keep), idx)
    {
      idx := PositionsStep(xs, i, keep, idx);
      i := i + 1;
    }
    assert xs[..i] == xs;
  }

  /** One more element scanned: its position is kept when it passes. */
  lemma PositionsStep<T>(xs: seq<T>, i: nat, keep: T -> bool, idx: seq<int>) returns (idx': seq<int>)
    requires i < |xs|
    requires KeptPositions(xs[..i], keep, idx) && PickedAt(xs, Filter(xs[..i], keep), idx)
    ensures KeptPositions(xs[..i + 1], keep, idx') && PickedAt(xs, Filter(xs[..i + 1], keep), idx')
  {
    KeptStep(xs, i, keep, idx);
    FilterStep(xs, i, keep);
    if keep(xs[i]) {
      PickedAppend(xs, Filter(xs[..i], keep), idx, i);
      idx' := idx + [i];
    } else {
      idx' := idx;
    }
  }

  lemma PickedAppend<T>(xs: seq<T>, ys: seq<T>, idx: seq<int>, i: nat)
    requires i < |xs| && PickedAt(xs, ys, idx)
    ensures PickedAt(xs, ys + [xs[i]], idx + [i])
  {
  }

  /** Filtering one element more appends it when it passes. */
  lemma FilterStep<T>(xs: seq<T>, i: nat, keep: T -> bool)
    requires i < |xs|
    ensures Filter(xs[..i + 1], keep) == Filter(xs[..i], keep) + (if keep(xs[i]) then [xs[i]] else [])
  {
    assert xs[..i + 1][..i] == xs[..i];
  }

  /** Filtering with a test everything passes changes nothing. */
  lemma {:induction false} FilterAll<T>(xs: seq<T>, keep: T -> bool)
    requires forall x :: x in xs ==> keep(x)
    ensures Filter(xs, keep) == xs
    decreases |xs|
  {
    if |xs| > 0 {
      FilterAll(xs[..|xs| - 1], keep);
      assert xs[..|xs| - 1] + [xs[|xs| - 1]] == xs;
    }
  }

  /** `xs.map(f)`. */
  function Map<A, B>(xs: seq<A>, f: A -> B): (ys: seq<B>)
    ensures |ys| == |xs|
    ensures forall k :: 0 <= k < |xs| ==> ys[k] == f(xs[k])
  {
    seq(|xs|, k requires 0 <= k < |xs| => f(xs[k]))
  }
}

=== FILE: text.dfy ===
/** String and number helpers with the semantics of the runtimes the system
    uses: JavaScript's `toLowerCase`/`toUpperCase`/`includes`/`replace`, Go's
    `strconv.ParseInt(s, 10, 64)` and `strconv.Itoa`, and the code-point order
    taken for SQL `ORDER BY` on text (the order of the C collation; the
    database's own collation is not part of this model). */
module Text {

  // ---------------------------------------------------------------------------
  // Letter case (ASCII letters; every other character is left as it is)
  // ---------------------------------------------------------------------------

  predicate IsUpperLetter(c: char) { 'A' <= c <= 'Z' }
  predicate IsLowerLetter(c: char) { 'a' <= c <= 'z' }

  function LowerChar(c: char): char {
    if IsUpperLetter(c) then (c as int + 32) as char else c
  }

  function UpperChar(c: char): char {
    if IsLowerLetter(c) then (c as int - 32) as char else c
  }

  /** `s.toLowerCase()`: every character lowered, nothing else changed. */
  function Lower(s: string): (r: string)
    ensures |r| == |s|
    ensures forall i :: 0 <= i < |s| ==> r[i] == LowerChar(s[i])
    ensures forall i :: 0 <= i < |s| ==> !IsUpperLetter(r[i])
  {
    if |s| == 0 then "" else [LowerChar(s[0])] + Lower(s[1..])
  }

  /** `s.toUpperCase()`. */
  function Upper(s: string): (r: string)
    ensures |r| == |s|
    ensures forall i :: 0 <= i < |s| ==> r[i] == UpperChar(s[i])
    ensures forall i :: 0 <= i < |s| ==> !IsLowerLetter(r[i])
  {
    if |s| == 0 then "" else [UpperChar(s[0])] + Upper(s[1..])
  }

  /** Lowering twice is lowering once: a lowered search term compared with a
      lowered name is the same comparison whichever side was lowered first. */
  lemma LowerIdempotent(s: string)
    ensures Lower(Lower(s)) == Lower(s)
  {
  }

  /** Lowering forgets an earlier upper-casing: a search term typed in any
      mix of cases is lowered to the same term. */
  lemma {:induction false} LowerOfUpper(s: string)
    ensures Lower(Upper(s)) == Lower(s)
  {
    var u := Upper(s);
    assert |Lower(u)| == |Lower(s)|;
    forall i | 0 <= i < |s| ensures Lower(u)[i] == Lower(s)[i] {
      assert Lower(u)[i] == LowerChar(u[i]) && u[i] == UpperChar(s[i]);
      LowerOfUpperChar(s[i]);
    }
  }

  lemma LowerOfUpperChar(c: char)
    ensures LowerChar(UpperChar(c)) == LowerChar(c)
  {
  }

  /** `s.charAt(0).toUpperCase() + s.slice(1)`. */
  function Capitalize(s: string): (r: string)
    ensures |r| == |s|
    ensures |s| > 0 ==> r[0] == UpperChar(s[0]) && r[1..] == s[1..]
  {
    if |s| == 0 then "" else [UpperChar(s[0])] + s[1..]
  }

  /** `s.replace(/<from>/g, <to>)` for a single-character pattern. */
  function ReplaceChar(s: string, from: char, to: char): (r: string)
    ensures |r| == |s|
    ensures forall i :: 0 <= i < |s| ==> r[i] == (if s[i] == from then to else s[i])
    ensures from != to ==> forall i :: 0 <= i < |s| ==> r[i] != from
  {
    if |s| == 0 then "" else [if s[0] == from then to else s[0]] + ReplaceChar(s[1..], from, to)
  }

  // ---------------------------------------------------------------------------
  // Substring search (`haystack.includes(needle)`)
  // ---------------------------------------------------------------------------

  /** `needle` occurs in `s` starting at index `i`. */
  predicate OccursAt(s: string, needle: string, i: int) {
    0 <= i && i + |needle| <= |s| && s[i..i + |needle|] == needle
  }

  /** `s.includes(needle)`, computed by scanning from the left. */
  function Includes(s: string, needle: string): (b: bool)
    ensures b <==> exists i :: OccursAt(s, needle, i)
    decreases |s|
  {
    if |needle| > |s| then
      assert forall i :: !OccursAt(s, needle, i);
      false
    else if s[..|needle|] == needle then
      assert OccursAt(s, needle, 0);
      true
    else
      var rest := Includes(s[1..], needle);
      assert forall i :: OccursAt(s[1..], needle, i) <==> OccursAt(s, needle, i + 1) by {
        forall i ensures OccursAt(s[1..], needle, i) <==> OccursAt(s, needle, i + 1) {
          if 0 <= i && i + |needle| <= |s| - 1 {
            assert s[1..][i..i + |needle|] == s[i + 1..i + 1 + |needle|];
          }
        }
      }
      assert forall i :: OccursAt(s, needle, i) ==> i == 0 || OccursAt(s[1..], needle, i - 1);
      rest
  }

  /** The empty string occurs in every string. */
  lemma IncludesEmpty(s: string)
    ensures Includes(s, "")
  {
    assert OccursAt(s, "", 0);
  }

  // ---------------------------------------------------------------------------
  // Decimal integers
  // ---------------------------------------------------------------------------

  /** A 64-bit IEEE-754 value, kept as an opaque bit pattern: coordinates and
      bearings are copied, never computed with. */
  datatype Float64 = Float64(bits: bv64)

  const MaxUint64: int := 0xFFFF_FFFF_FFFF_FFFF
  const MinInt64: int := -0x8000_0000_0000_0000
  const MaxInt64: int := 0x7FFF_FFFF_FFFF_FFFF

  predicate IsDigit(c: char) { '0' <= c <= '9' }

  function DigitValue(c: char): int
    requires IsDigit(c)
  {
    c as int - '0' as int
  }

  function DigitChar(d: int): (c: char)
    requires 0 <= d < 10
    ensures IsDigit(c) && DigitValue(c) == d
  {
    ('0' as int + d) as char
  }

  predicate AllDigits(s: string) {
    forall i :: 0 <= i < |s| ==> IsDigit(s[i])
  }

  /** The value of a run of decimal digits, most significant first. */
  function DigitsValue(s: string): (v: nat)
    requires AllDigits(s)
  {
    if |s| == 0 then 0 else DigitsValue(s[..|s| - 1]) * 10 + DigitValue(s[|s| - 1])
  }

  /** The decimal text of a natural number, without leading zeros. */
  function NatToString(n: nat): (s: string)
    ensures |s| > 0 && AllDigits(s)
    ensures |s| > 1 ==> s[0] != '0'
  {
    if n < 10 then [DigitChar(n)] else NatToString(n / 10) + [DigitChar(n % 10)]
  }

  /** The decimal text of an integer as JavaScript or Go prints it. */
  function IntToString(n: int): (s: string)
    ensures |s| > 0
    ensures n < 0 <==> s[0] == '-'
  {
    if n < 0 then "-" + NatToString(-n) else NatToString(n)
  }

  lemma {:induction false} NatToStringValue(n: nat)
    ensures DigitsValue(NatToString(n)) == n
  {
    if n >= 10 {
      var s := NatToString(n);
      var p := NatToString(n / 10);
      assert s == p + [DigitChar(n % 10)];
      assert s[..|s| - 1] == p;
      NatToStringValue(n / 10);
    }
  }

  /** How a Go `strconv` integer parse ends: a value, or one of the two
      `*NumError` kinds (`ErrSyntax`, `ErrRange`). */
  datatype NumResult = Num(value: int) | SyntaxError | RangeError

  /** The digit loop of Go's `strconv.ParseUint(s, 10, 64)`, from index `i`
      with the value `n` accumulated so far. It stops at the first character
      that is not a digit (syntax error), or as soon as the accumulated value
      would leave the unsigned 64-bit range (range error), whichever comes
      first in the string. */
  function ScanDigits(s: string, i: nat, n: int): (r: NumResult)
    requires i <= |s| && 0 <= n <= MaxUint64
    ensures r.Num? ==> 0 <= r.value <= MaxUint64
    decreases |s| - i
  {
    if i == |s| then Num(n)
    else if !IsDigit(s[i]) then SyntaxError
    else if n >= MaxUint64 / 10 + 1 then RangeError
    else
      var n1 := n * 10 + DigitValue(s[i]);
      if n1 > MaxUint64 then RangeError else ScanDigits(s, i + 1, n1)
  }

  /** Go's `strconv.ParseUint(s, 10, 64)`: at least one digit, digits only. */
  function ParseUint64(s: string): (r: NumResult)
    ensures r.Num? ==> 0 <= r.value <= MaxUint64
  {
    if |s| == 0 then SyntaxError else ScanDigits(s, 0, 0)
  }

  /** Go's `strconv.ParseInt(s, 10, 64)`, which is also what `strconv.Atoi`
      computes on a 64-bit platform: an optional `+` or `-`, then the digits
      of `ParseUint64`, then a check against the signed 64-bit range. */
  function ParseInt64(s: string): (r: NumResult)
    ensures r.Num? ==> MinInt64 <= r.value <= MaxInt64
    ensures |s| == 0 ==> r == SyntaxError
  {
    if |s| == 0 then SyntaxError
    else
      var neg := s[0] == '-';
      var body := if s[0] == '-' || s[0] == '+' then s[1..] else s;
      match ParseUint64(body)
      case SyntaxError => SyntaxError
      case RangeError => RangeError
      case Num(u) =>
        if !neg && u > MaxInt64 then RangeError
        else if neg && u > -MinInt64 then RangeError
        else if neg then Num(-u)
        else Num(u)
  }

  /** Every prefix of a run of digits is worth at most the whole run. */
  lemma {:induction false} DigitsPrefixBound(s: string, j: nat)
    requires AllDigits(s) && j <= |s|
    ensures DigitsValue(s[..j]) <= DigitsValue(s)
    decreases |s| - j
  {
    if j < |s| {
      var t := s[..|s| - 1];
      assert t[..j] == s[..j];
      assert s[..|s|] == s;
      DigitsPrefixBound(t, j);
    } else {
      assert s[..j] == s;
    }
  }

  /** The scan loop, started on a prefix's value, finishes with the value of
      the whole run when that value fits in 64 unsigned bits. */
  lemma {:induction false} ScanDigitsValue(s: string, i: nat)
    requires AllDigits(s) && i <= |s| && DigitsValue(s) <= MaxUint64
    ensures DigitsValue(s[..i]) <= MaxUint64
    ensures ScanDigits(s, i, DigitsValue(s[..i])) == Num(DigitsValue(s))
    decreases |s| - i
  {
    DigitsPrefixBound(s, i);
    if i == |s| {
      assert s[..i] == s;
    } else {
      var n := DigitsValue(s[..i]);
      var p := s[..i + 1];
      assert p[..|p| - 1] == s[..i];
      assert DigitsValue(p) == n * 10 + DigitValue(s[i]);
      DigitsPrefixBound(s, i + 1);
      ScanDigitsValue(s, i + 1);
    }
  }

  /** Printing an integer in the signed 64-bit range and parsing it back with
      Go's `strconv.ParseInt(s, 10, 64)` gives the same integer. */
  lemma {:induction false} ParseIntRoundTrip(n: int)
    requires MinInt64 <= n <= MaxInt64
    ensures ParseInt64(IntToString(n)) == Num(n)
  {
    var m: nat := if n < 0 then -n else n;
    var digits := NatToString(m);
    NatToStringValue(m);
    assert digits[..0] == "";
    ScanDigitsValue(digits, 0);
    assert ParseUint64(digits) == Num(m);
    if n < 0 {
      assert IntToString(n)[1..] == digits;
    } else {
      assert digits[0] != '-' && digits[0] != '+';
    }
  }

  /** The text after an optional leading `+` or `-`. */
  function Unsigned(s: string): string {
    if |s| > 0 && (s[0] == '-' || s[0] == '+') then s[1..] else s
  }

  /** An optional sign followed by one or more decimal digits. */
  predicate DecimalShape(s: string) {
    |Unsigned(s)| > 0 && AllDigits(Unsigned(s))
  }

  /** The value a decimal-shaped text denotes, negated after a `-`. */
  function SignedDigits(s: string): int
    requires DecimalShape(s)
  {
    var v: int := DigitsValue(Unsigned(s));
    if s[0] == '-' then -v else v
  }

  /** Decimal text of an integer in the signed 64-bit range: the reference
      against which `ParseInt64` is checked. */
  predicate IsDecimalInt64(s: string) {
    DecimalShape(s) && MinInt64 <= SignedDigits(s) <= MaxInt64
  }

  /** On a run of digits the scan loop, started on a prefix's value, gives
      the run's value when it fits in 64 unsigned bits and a range error
      otherwise. */
  lemma {:induction false} ScanDigitsRun(s: string, i: nat)
    requires AllDigits(s) && i <= |s| && DigitsValue(s[..i]) <= MaxUint64
    ensures ScanDigits(s, i, DigitsValue(s[..i])) ==
      if DigitsValue(s) <= MaxUint64 then Num(DigitsValue(s)) else RangeError
    decreases |s| - i
  {
    if i == |s| {
      assert s[..i] == s;
    } else {
      var n := DigitsValue(s[..i]);
      var p := s[..i + 1];
      assert p[..|p| - 1] == s[..i];
      assert DigitsValue(p) == n * 10 + DigitValue(s[i]);
      DigitsPrefixBound(s, i + 1);
      if n < MaxUint64 / 10 + 1 && n * 10 + DigitValue(s[i]) <= MaxUint64 {
        ScanDigitsRun(s, i + 1);
      }
    }
  }

  /** `ParseInt64` succeeds exactly on the decimal text of a signed 64-bit
      integer and then yields that integer; decimal text out of range is a
      range error, and anything without the decimal shape never parses. */
  lemma ParseIntMeaning(s: string)
    ensures ParseInt64(s).Num? <==> IsDecimalInt64(s)
    ensures ParseInt64(s).Num? ==> ParseInt64(s).value == SignedDigits(s)
    ensures DecimalShape(s) && !IsDecimalInt64(s) ==> ParseInt64(s) == RangeError
  {
    if ParseInt64(s).Num? {
      ParseIntShape(s);
    }
    if DecimalShape(s) {
      var body := Unsigned(s);
      assert body[..0] == "";
      ScanDigitsRun(body, 0);
    }
  }

  /** A successful parse only ever comes from an optional sign followed by
      one or more digits. */
  lemma ParseIntShape(s: string)
    requires ParseInt64(s).Num?
    ensures var body := if s[0] == '-' || s[0] == '+' then s[1..] else s;
            |body| > 0 && AllDigits(body)
  {
    var body := if s[0] == '-' || s[0] == '+' then s[1..] else s;
    ScanOnlyDigits(body, 0, 0);
  }

  lemma {:induction false} ScanOnlyDigits(s: string, i: nat, n: int)
    requires i <= |s| && 0 <= n <= MaxUint64
    requires ScanDigits(s, i, n).Num?
    ensures forall k :: i <= k < |s| ==> IsDigit(s[k])
    decreases |s| - i
  {
    if i < |s| {
      ScanOnlyDigits(s, i + 1, n * 10 + DigitValue(s[i]));
    }
  }

  // ---------------------------------------------------------------------------
  // Code-point order on text, taken for SQL `ORDER BY`
  // ---------------------------------------------------------------------------

  /** `a` sorts strictly before `b`: `a` is a proper prefix of `b`, or at the
      first position where they differ `a` has the smaller character. */
  predicate LexLess(a: string, b: string) {
    if |a| == 0 then |b| > 0
    else if |b| == 0 then false
    else if a[0] != b[0] then a[0] < b[0]
    else LexLess(a[1..], b[1..])
  }

  lemma LexLessIrreflexive(a: string)
    ensures !LexLess(a, a)
  {
  }

  lemma {:induction false} LexLessTransitive(a: string, b: string, c: string)
    requires LexLess(a, b) && LexLess(b, c)
    ensures LexLess(a, c)
    decreases |a|
  {
    if |a| > 0 && |b| > 0 && |c| > 0 && a[0] == b[0] && b[0] == c[0] {
      LexLessTransitive(a[1..], b[1..], c[1..]);
    }
  }

  lemma {:induction false} LexLessTotal(a: string, b: string)
    requires a != b
    ensures LexLess(a, b) || LexLess(b, a)
    decreases |a|
  {
    if |a| > 0 && |b| > 0 && a[0] == b[0] {
      assert a == [a[0]] + a[1..] && b == [b[0]] + b[1..];
      LexLessTotal(a[1..], b[1..]);
    }
  }

  /** Each element sorts strictly before the next, so there are no repeats. */
  predicate StrictlyAscending(s: seq<string>) {
    forall i, j :: 0 <= i < j < |s| ==> LexLess(s[i], s[j])
  }

  /** Inserts `x` into an ascending list of distinct strings, keeping it
      ascending and distinct. */
  function InsertAscending(s: seq<string>, x: string): (r: seq<string>)
    requires StrictlyAscending(s)
    ensures StrictlyAscending(r)
    ensures forall y :: y in r <==> y in s || y == x
  {
    if |s| == 0 then [x]
    else if s[0] == x then s
    else if LexLess(x, s[0]) then
      assert forall j :: 0 < j < |s| ==> LexLess(x, s[j]) by {
        forall j | 0 < j < |s| ensures LexLess(x, s[j]) {
          LexLessTransitive(x, s[0], s[j]);
        }
      }
      [x] + s
    else
      LexLessTotal(x, s[0]);
      var tail := InsertAscending(s[1..], x);
      assert forall y :: y in tail ==> LexLess(s[0], y);
      [s[0]] + tail
  }
}

=== FILE: wrappers.dfy ===
/** Failure-compatible wrappers shared by every part of the model. */
module Wrappers {

  /** A value that may be absent: a SQL NULL, a JSON field that is missing,
      a lookup that found nothing. */
  datatype Option<+T> = None | Some(value: T) {

    /** Returns the wrapped value, or `default` when there is none. */
    function GetOr(default: T): T {
      match this
      case Some(v) => v
      case None => default
    }
  }

  /** The outcome of an operation that can fail with an error of type `E`. */
  datatype Result<+R, +E> = Ok(value: R) | Err(error: E)
}
